=== FILE: README.md ===
# Retro Tetris: game engine and leaderboard, modelled in Dafny

This project models the two logic cores of the Retro Tetris clone:

- **The board and piece engine of `game.js`.** It covers the seven tetrominoes, the quarter-turn rotation and collision checking on the 20×10 board, where cells above the top edge are allowed. It also covers locking a piece into the grid and the bottom-up line-clear scan with its scoring, levels and drop speed. Then come the ghost / hard-drop landing row and the guarded steps: move, rotate, soft drop, hard drop, hold, spawn, pause, start/reset and the keydown dispatcher. The source keeps all of this in module-level variables. Here it is one immutable `GameState` record with one pure function per step.
- **The leaderboard handlers of `app.js`.** The store is `highScores` plus `nextId`. POST validates and inserts, DELETE removes by id and GET returns the top-10 view. Each one is a pure function that returns the HTTP outcome (200 / 400 / 404 / 500) and the new store.

Files, one module each:

| file | module | contents |
|---|---|---|
| `wrappers.dfy` | `Wrappers` | `Option` (JavaScript's null), `Min`, `Max` |
| `tetromino.dfy` | `Tetromino` | shapes, pieces, the tetromino table, rotation |
| `playfield.dfy` | `Playfield` | board, collision rule, `isValidMove`, `placePiece`, landing row |
| `lineclear.dfy` | `LineClear` | the `clearLines` scan and its reference result |
| `game.dfy` | `Game` | game state, step functions, the reachable-state invariant |
| `jstext.dfy` | `JsText` | `String.prototype.trim` and `parseInt` as ECMA-262 defines them |
| `leaderboard.dfy` | `Leaderboard` | records, store invariant, stable sort, GET/POST/DELETE |

How the model treats the source:

- **Randomness.** `Math.random` is replaced by a `Rolls(first, second)` parameter: the tetrominoes `getRandomPiece` would return, in call order. `nextPiece || getRandomPiece()` consumes `first` only when there is no next piece; the new next piece takes the following draw.
- **Collision rule and placement.** `isValidMove` is written as the source's two nested scans (`RowValid`, `ShapeValid`) and proved equal to the declarative rule `Fits`. `placePiece` is written as the source's cell-by-cell writes (`PlaceRow`, `PlaceRows`) and proved to produce exactly the cell-wise description.
- **Line clearing.** `clearLines` is written as the source's bottom-up scan. A removed row is spliced out, an empty row is put on top, and the same index is checked again (`ClearScan`). It is proved equal to a reference result: one empty row per full row, then the non-full rows in their original order (`Blank`, `Survivors`).
- **Reachable-state invariant.** `Game.Inv` holds in every reachable state: the board is 20×10, every piece is rectangular and non-blank, and score, level, lines and interval agree. While the game runs there is a current piece at a position the collision rule accepts. `Drop`, `HardDrop`, `SoftDrop` and `HandleKey` require `Inv`, because locking writes into the grid and the source would throw (row ≥ 20) or grow a row (column ≥ 10) at a position outside the walls. `Inv` is proved for the state `Start` creates and preserved by every step. `ReachableStatesValid` states it for every event sequence from the initial page.
- **The leaderboard store.** The store is a sequence of records. `Leaderboard.Valid` is its invariant: ordered by descending score, equal scores in insertion (id) order, unique positive ids below `nextId`, non-negative scores, at most 100 records. The seed satisfies it and every handler keeps it.
- **The JavaScript sort.** `Array.prototype.sort` with comparator `b.score - a.score` is stable, so it is modelled as a stable insertion sort (`SortDesc`). Its contract (sorted, a permutation, each score's records in input order) determines the result uniquely.

Where the code and its design notes differ, the model follows the code:

- **Non-string nickname.** POST answers 400 only for a falsy nickname, a non-number score or a negative score. The test runs on the untrimmed nickname, so an all-white-space nickname is accepted and stored as `""`. A truthy nickname that is not a string passes the test, but `nickname.trim()` then throws. Because the object literal evaluates `id: nextId++` first, the request fails with 500 and the counter still advances (`Post`, `InternalError`).
- **Soft-drop bonus.** The keydown handler adds the +1 after `dropPiece()` whenever the game is running. That includes while paused (the drop itself does nothing then) and after a drop that ended the game. So the bonus is per key press, not per cell descended (`SoftDrop`).
- **Failed hold.** When the piece brought in by a hold collides at the spawn position, the game ends. The hold slot and current piece are already swapped, and `canHold` stays true (`Hold`).
- **Retention cap.** The leaderboard keeps up to 100 records (`RetentionCap`) but answers with 10 (`TopCount`). Both constants are kept.

## Model

| member | source | states |
|---|---|---|
| `Tetromino.Make` | game.js:7-56 | each of the seven table entries is a non-empty rectangular shape with at least one filled cell, at most 2 rows by 4 columns |
| `Tetromino.Rotate` | game.js:105-120 | an r×c shape turns into a c×r rectangular shape with `rotated[j][r-1-i] == shape[i][j]` for every cell, and the colour is kept |
| `Tetromino.RotateWellShaped` | game.js:105-120 | rotating a piece that has a filled cell gives a piece that has one, so rotated pieces stay playable |
| `Tetromino.RotateTwice` | game.js:105-120 | two quarter turns reverse both rows and columns, keeping size and colour |
| `Tetromino.HalfTurnTwice` | game.js:105-120 | two half turns give back the original shape and colour |
| `Tetromino.RotateFourTimes` | game.js:105-120 | four rotations return the original piece |
| `Playfield.EmptyBoard` | game.js:59 | the initial board has 20 rows of 10 cells, all empty |
| `Playfield.RowValid` | game.js:124-138 | the inner scan over one shape row accepts iff each filled cell from the given column on is inside the walls, above the floor, and above the top or on an empty cell |
| `Playfield.ShapeValid` | game.js:123-141 | the outer scan accepts iff every filled cell from the given row on lands on a free position |
| `Playfield.IsValidMove` | game.js:122-142 | `isValidMove` is true iff every filled cell lands in columns 0..9 and rows < 20, and on an empty cell whenever its row is ≥ 0; cells above the top are allowed |
| `Playfield.PlaceRow` | game.js:146-154 | writing one shape row changes exactly the cells under its filled cells in that board row (none when the row is above the top) and keeps the board 20×10 |
| `Playfield.PlaceRows` | game.js:145-155 | writing the shape rows from a given row on changes exactly the visible cells they cover |
| `Playfield.PlacePiece` | game.js:144-156 | at a position inside the walls, the piece colour is written into exactly the visible cells under filled cells; every other cell is unchanged and the board stays 20×10 |
| `Playfield.FitsInsideWalls` | game.js:129-132 | a position the collision rule accepts keeps every filled cell inside the walls and above the floor, as placement needs |
| `Playfield.FitsAboveFloor` | game.js:130 | a piece with a filled cell is never accepted at row 20 or below, which bounds every downward loop |
| `Playfield.LandingRow` | game.js:216-220 | the landing row is ≥ the start row, the piece is refused one row further down, and it is accepted at every row passed on the way |
| `LineClear.Blank` | game.js:164 | `n` inserted rows are `n` empty rows of width 10 |
| `LineClear.EmptyRowNotFull` | game.js:162 | an inserted empty row is never full, so it is never removed again |
| `LineClear.SurvivorsFacts` | game.js:158-168 | the kept rows are rows of the input and are not full; kept plus removed rows add up to the input's rows |
| `LineClear.PrependEmpty` | game.js:163-164 | an empty row put on top adds no full row and is kept in front |
| `LineClear.FullRowStep` | game.js:162-166 | splicing out a full row and putting an empty row on top keeps the board 20×10. The row moves from the non-full part to the count, and the compacted rows at and above the scan row are unchanged |
| `LineClear.ClearScan` | game.js:161-168 | the scan from a row upward leaves the rows below it untouched, and puts one empty row per full row on top of the non-full rows at and above it, in order; it counts the full rows |
| `LineClear.ClearLines` | game.js:158-168 | the board stays 20×10. The count equals the number of full rows, with one empty row per removed row on top. The non-full rows follow in their original order, and no row is full afterwards |
| `LineClear.NoFullRow` | game.js:161-168 | a board with no full row has nothing counted and nothing removed |
| `LineClear.ClearLinesIdempotent` | game.js:158-168 | clearing a cleared board removes nothing and changes nothing |
| `Game.AwardLines` | game.js:170-177 | for n > 0: lines grow by n and score by exactly n·100·(level before). Level becomes ⌊lines/10⌋+1 and the interval max(100, 1000-(level-1)·50), never below 100. With n = 0 nothing changes. Consistency of score, level, lines and interval is preserved |
| `Game.Initial` | game.js:58-73 | the page starts stopped and unpaused with an empty 20×10 board, no pieces, position (0, 0), hold armed, score 0, level 1, lines 0, interval 1000; this state satisfies the invariant |
| `Game.GameOver` | game.js:459-466 | the game stops and every other part of the state (board, pieces, position, score) is kept; the invariant is preserved |
| `Game.Advance` | game.js:348-349 | the new current piece is the next piece, or the first draw when there is none; the new next piece is the following draw; both are playable |
| `Game.Spawn` | game.js:378-393 | the queue advances and the piece starts at x = 5-⌊width/2⌋, y = 0. Hold is re-armed, the game ends exactly when the new piece collides there, and board and score are unchanged |
| `Game.SpawnInv` | game.js:378-393 | spawning from a well-formed, consistent state yields a state satisfying the invariant |
| `Game.Hold` | game.js:339-376 | no-op when inactive or when hold was used since the last spawn. Otherwise the current piece goes to hold and is replaced by the held piece, or by the next one when hold was empty. The position resets and the game ends iff that piece collides; on success `canHold` becomes false. The invariant is preserved |
| `Game.Move` | game.js:408-414 | nothing happens when inactive; otherwise the shift is committed iff the collision rule accepts the shifted position, else the state is unchanged; the invariant is preserved |
| `Game.RotateCurrent` | game.js:416-423 | nothing happens when inactive; otherwise the rotated piece is committed iff the collision rule accepts it in place (no wall kick); the invariant is preserved |
| `Game.Lock` | game.js:401-404 | the new board is the cleared board after placing the piece. Lines and score grow by the number of rows it completed (score by 100·level each). Then the queue advances and the new piece enters at x = 5-⌊width/2⌋, y = 0 with hold re-armed. The game keeps running iff that piece fits there on the new board, and the invariant holds |
| `Game.Drop` | game.js:395-406 | nothing happens when inactive; one row down iff the row below is accepted, else the piece locks; the invariant is preserved |
| `Game.GhostY` | game.js:213-221 | with no piece the current row. Otherwise a row ≥ the current one where the piece is refused one row further down and accepted at every row passed |
| `Game.Descend` | game.js:428-431 | the hard-drop loop stops on the landing row having added exactly 2 points per row descended |
| `Game.HardDrop` | game.js:425-436 | nothing happens when inactive; otherwise the step keeps the invariant |
| `Game.HardDropLandsOnGhost` | game.js:425-436 | a hard drop is exactly `Lock` of the piece moved to the ghost row with 2 points per row descended. So, by `Lock`'s contract, the new board is the cleared board after that placement and lines grow by the completed rows. The score grows by 2 per row descended plus 100·level per completed row. The next piece then spawns with hold re-armed, and the game ends iff it collides at the spawn position |
| `Game.SoftDrop` | game.js:525-530 | when running, the state after one drop with the score raised by exactly 1 and nothing else changed, even if the drop did nothing because the game is paused; nothing when not running; the invariant is preserved |
| `Game.Pause` | game.js:481-491 | toggles `paused` of a running game and changes nothing else; no-op otherwise |
| `Game.SpawnFitsOnEmptyBoard` | game.js:381-386 | any rectangular shape no wider and no taller than the board fits at the spawn position of an empty board, so the first spawn never ends the game |
| `Game.Reset` | game.js:444-457 | empty board, score 0, level 1, lines 0, interval 1000, hold empty and re-armed, two fresh pieces, the current one at the spawn position x = 5-⌊width/2⌋, y = 0; the result satisfies the invariant |
| `Game.Start` | game.js:468-479 | ignored while running; otherwise a reset game that is running, not paused, with a piece at a valid position |
| `Game.HandleKey` | game.js:513-553 | nothing when not running. Otherwise ArrowLeft/ArrowRight move by -1/+1, ArrowDown soft-drops, ArrowUp rotates, Space pauses, C holds, S hard-drops. Ctrl/Meta+S and any other key do nothing. The invariant is preserved |
| `Game.StoppedUntilStart` | game.js:513-514 | in a stopped game every key, timer drop and pause press leaves the state unchanged; only the start button acts |
| `Game.Apply` | game.js:493-557 | a key press runs the keydown handler, the timer's tick runs a drop, the start button runs `Start` and the pause button runs `Pause`; every event keeps the invariant |
| `Game.Run` | game.js:493-557 | any sequence of events from a state satisfying the invariant ends in one that satisfies it |
| `Game.ReachableStatesValid` | game.js:378-436 | in every state reachable from the initial page the board is 20×10 and, while running, the falling piece is at a position the collision rule accepts |
| `JsText.TrimStart` | app.js:46 | the result is the suffix starting at the first non-white-space character; everything dropped is white space |
| `JsText.TrimEnd` | app.js:46 | the result is the prefix ending at the last non-white-space character; everything dropped is white space |
| `JsText.Trim` | app.js:46 | `nickname.trim()` is a slice of the input with only white space around it and no white space at either end |
| `JsText.TrimStartNoop` | app.js:46 | a string not starting with white space is left as it is by the leading trim |
| `JsText.TrimEndNoop` | app.js:46 | a string not ending with white space is left as it is by the trailing trim |
| `JsText.TrimBlank` | app.js:36-46 | a nickname of white space only trims to the empty string |
| `JsText.TrimIdempotent` | app.js:46 | trimming twice equals trimming once |
| `JsText.ParseUnsigned` | app.js:72 | the digits after the sign give a number only when they start with a decimal digit (also for a "0x" prefix, which starts with '0'); a string of decimal digits is read as its decimal value |
| `JsText.ParseInt` | app.js:72 | `parseInt` of a blank string is NaN; after a leading '-' the value is ≤ 0, otherwise ≥ 0; after a leading digit the unsigned reading is returned unchanged |
| `JsText.DigitPrefix` | app.js:72 | the digit run `parseInt` converts is the longest prefix of digits of the radix |
| `JsText.NatToString` | app.js:72 | the decimal rendering of an id is a non-empty string of digits without a leading zero |
| `JsText.NatToStringValue` | app.js:72 | the digits of a decimal rendering have the rendered value |
| `JsText.AllDigitsPrefix` | app.js:72 | in a string of decimal digits the whole string is the digit run |
| `JsText.ParseUnsignedDecimal` | app.js:72 | the digit part of `parseInt` reads back the decimal rendering of every natural number |
| `JsText.ParseIntUnsigned` | app.js:72 | a string starting with a digit is read without a sign |
| `JsText.ParseIntMinus` | app.js:72 | a string starting with '-' is read as the negated digit part |
| `JsText.ParseIntRoundTrip` | app.js:72 | `parseInt(String(id))` returns `id` for every integer id |
| `JsText.ParseUnsignedNoDigit` | app.js:72 | without a decimal digit there is no number after the sign: NaN |
| `JsText.ParseIntNoDigit` | app.js:72 | a path segment with no decimal digit parses to NaN |
| `Leaderboard.WithScoreAppend` | app.js:54 | the records of one score in a concatenation are those of each part, in order |
| `Leaderboard.Insert` | app.js:54 | one insertion step adds exactly the new record to the multiset of records |
| `Leaderboard.InsertSorted` | app.js:54 | inserting into a list sorted by descending score keeps it sorted |
| `Leaderboard.WithScoreBelow` | app.js:54 | a sorted list headed by a lower score holds no record of the given score |
| `Leaderboard.InsertWithScore` | app.js:54 | insertion is stable: among records of equal score the inserted one comes last |
| `Leaderboard.SortDesc` | app.js:25 | the sort result is sorted by descending score, a permutation of the input, and keeps each score's records in input order (stability) |
| `Leaderboard.InsertLowest` | app.js:54 | a record scoring no more than every other lands at the end |
| `Leaderboard.SortSorted` | app.js:24-26 | sorting a list already in descending score order leaves it unchanged |
| `Leaderboard.SortSortedIfSorted` | app.js:24-26 | the same, stated for any list as an implication |
| `Leaderboard.Seed` | app.js:11-19 | the server starts with five records with ids 1..5 in strictly descending score order, and `nextId` = 6, the first unused id |
| `Leaderboard.Rejected` | app.js:36-38 | a missing, null or empty nickname or a non-number score is rejected with 400; a non-empty string nickname with a non-negative number score passes |
| `Leaderboard.SeedValid` | app.js:11-19 | the seed data is ordered by descending score with unique ids below `nextId` = 6 |
| `Leaderboard.OrderedIsSorted` | app.js:54 | a store in invariant order is sorted by descending score |
| `Leaderboard.InsertOrdered` | app.js:44-54 | inserting a record whose id is above every stored id keeps the order, ties in id order included |
| `Leaderboard.Top` | app.js:26 | the answer is the first min(10, n) records |
| `Leaderboard.Get` | app.js:22-29 | GET returns min(10, n) records, sorted and taken from the store. On a sorted store they are exactly its first min(10, n) records. The store is not changed |
| `Leaderboard.NewRecord` | app.js:43-49 | the stored record has id = `nextId`, the trimmed nickname, score ⌊score⌋ (a non-negative integer within 1 of the submitted value), and the supplied date |
| `Leaderboard.Cut` | app.js:57-59 | the list is cut to its first min(100, n) records |
| `Leaderboard.Admit` | app.js:51-59 | after append, sort and cut, the list has min(100, n+1) records sorted by descending score |
| `Leaderboard.Post` | app.js:32-68 | 400 with the store unchanged for a falsy nickname, a non-number or a negative score. 500 with only `nextId` advanced for a truthy non-string nickname. Otherwise `nextId` advances and the list is the new record admitted (sorted, ≤ 100). The answer is its first min(10, n) records |
| `Leaderboard.InsertMembers` | app.js:51-54 | after insertion every record is the new one or a stored one |
| `Leaderboard.AdmitOrdered` | app.js:51-59 | on a valid list the re-sort is the insertion of the new record after every record scoring at least as much. The result is ordered and holds only the new and stored records |
| `Leaderboard.PostValid` | app.js:32-68 | every POST keeps the store invariant: sorted, ties in insertion order, unique ids below `nextId`, at most 100 records |
| `Leaderboard.AdmitValid` | app.js:44-59 | storing a record with the next id and a non-negative score through append, sort and cut, and advancing the counter, keeps the store invariant |
| `Leaderboard.PostBlankNickname` | app.js:36-46 | the 400 test reads the untrimmed nickname: a white-space-only nickname is accepted and stored as the empty string |
| `Leaderboard.PostStoresRecord` | app.js:44-59 | the new id is above every stored id. The new record is stored, unless the list is full and every kept record scores at least as much |
| `Leaderboard.SortedSplit` | app.js:57-59 | in a sorted list nothing after a cut point outscores anything before it |
| `Leaderboard.AdmitKeepsHighest` | app.js:51-59 | the kept records are drawn from the old records plus the new one, and no dropped record outscores a kept one: the 100 highest are kept |
| `Leaderboard.RemoveId` | app.js:75 | the filter keeps exactly the records whose id differs from the parsed id. NaN matches nothing, and the length drops iff some record has that id. A one-record list is kept or emptied according to its id |
| `Leaderboard.RemoveIdAppend` | app.js:75 | filtering a concatenation filters each part and concatenates the results. With the one-record case this pins the result as the surviving records in their original order |
| `Leaderboard.RemoveIdOrdered` | app.js:75 | on a list in store order (descending score, ties by id), the filtered list is still in store order |
| `Leaderboard.RemoveAbsent` | app.js:75 | filtering out an id no record has changes nothing |
| `Leaderboard.RemoveUniqueId` | app.js:75 | with unique ids, filtering out one record's id removes exactly one record |
| `Leaderboard.Delete` | app.js:71-86 | 200 iff some record has the parsed id, with the list replaced by the filtered list (exactly those records removed, the rest in order), `nextId` kept and the first min(10, n) returned. Otherwise 404 with the store unchanged |
| `Leaderboard.DeleteValid` | app.js:71-86 | DELETE keeps the store invariant |
| `Leaderboard.DeleteStoredId` | app.js:71-86 | deleting by the decimal id of a stored record succeeds and removes exactly that record |
| `Leaderboard.DeleteNonNumeric` | app.js:72-84 | a path segment without a decimal digit parses to NaN and gets 404 with the store unchanged |

## Left out

- Canvas and DOM rendering (`drawBlock`, `drawGhostBlock`, `drawBoard`, `drawHoldPiece`, `drawNextPiece`, `updateUI`, `escapeHtml`, the modal and button handlers, `loadRanking`): display side effects only.
- Frame timing in `gameLoop`, `startGame` and `pauseGame` (`performance.now`, `requestAnimationFrame`, floating-point `deltaTime`). The timer's effect is the `TimerDrop` event, which runs `Drop`. Only the running and paused flags are kept.
- `Math.random` in `getRandomPiece`: the draws are the `Rolls` parameter.
- The side effects of `gameOver` (button states, modal, focus): the model keeps only `running := false`.
- The client's score submission (`fetch`, the client-side trim and alerts), Express routing and middleware, JSON encoding, `express.static`, `sendFile` and `app.listen`.
- The date `new Date().toISOString().split('T')[0]`: supplied by the caller as a string.
- JSON numbers beyond doubles: a submitted score is a real number. Infinity (from an overflowing literal) and the sign of -0 are not modelled, and neither is the precision loss of `parseInt` above 2^53.
- Board cells hold colour strings, and the source tests them for truthiness. Every colour in the tetromino table is non-empty, so the model treats any `Filled` cell as occupied.
- Shapes that are not rectangular: `Tetromino.Rotate` requires a rectangular shape with at least one row and one column. The source reads `shape[0].length`, and every piece in play (the seven shapes and their rotations) is rectangular.
- Playfield.LandingRow, Game.Descend and Game.GhostY require a piece with at least one filled cell, because that is what makes their downward scan stop. In the source, `getGhostY` and `hardDrop` would loop forever on a blank piece. No blank piece is ever in play: every table entry and every rotation has a filled cell (`WellShaped`, kept by `Game.Inv`).
- Placement outside the walls: `Playfield.PlacePiece` requires every filled cell inside the walls and above the floor. In the source such a write throws (row ≥ 20) or grows a row (column ≥ 10), and the invariant `Game.Inv` shows the game never places there.

=== FILE: game.dfy ===
/** The game state of game.js as one immutable record, and one pure function per step:
    spawn, hold, move, rotate, drop (timer and soft drop), hard drop, pause, start/reset,
    and the keydown dispatcher. Math.random is replaced by the `Rolls` parameter. */
module Game {
  import opened Wrappers
  import opened Tetromino
  import opened Playfield
  import opened LineClear

  /** The source's module-level variables that the game logic reads and writes. */
  datatype GameState = GameState(
    board: Board,
    current: Option<Piece>,
    x: int,
    y: int,
    next: Option<Piece>,
    hold: Option<Piece>,
    canHold: bool,
    score: int,
    level: int,
    lines: int,
    dropInterval: int,
    running: bool,
    paused: bool)

  /** The tetrominoes getRandomPiece would return during one step, in call order. A step that
      draws once uses `first`; one that draws twice uses both. */
  datatype Rolls = Rolls(first: Kind, second: Kind)

  /** The keys the keydown handler reacts to; `KeyS` carries whether Ctrl or Meta was held. */
  datatype Key = ArrowLeft | ArrowRight | ArrowDown | ArrowUp | Space | KeyC | KeyS(modified: bool) | OtherKey

  /** The state the page starts with, before the first start. */
  function Initial(): (g: GameState)
    ensures !g.running && !g.paused && g.current.None? && g.next.None? && g.hold.None? && g.canHold
    ensures g.x == 0 && g.y == 0
    ensures g.board == EmptyBoard() && g.score == 0 && g.level == 1 && g.lines == 0 && g.dropInterval == 1000
    ensures Inv(g)
  {
    GameState(EmptyBoard(), None, 0, 0, None, None, true, 0, 1, 0, 1000, false, false)
  }

  /** Level reached after `lines` cleared lines: one more every ten. */
  function LevelFor(lines: int): int {
    lines / 10 + 1
  }

  /** Milliseconds between automatic drops at a level: 50 less per level, never below 100. */
  function DropIntervalFor(level: int): int {
    Max(100, 1000 - (level - 1) * 50)
  }

  /** Score, level, lines and drop speed agree with each other. */
  predicate ProgressConsistent(s: GameState) {
    && s.lines >= 0
    && s.score >= 0
    && s.level == LevelFor(s.lines)
    && s.dropInterval == DropIntervalFor(s.level)
  }

  /** An absent piece, or one of the shapes that can come into play. */
  predicate PieceOk(o: Option<Piece>) {
    o.Some? ==> WellShaped(o.value)
  }

  /** What every step needs to be well defined: a 20-by-10 board and well-shaped pieces. */
  predicate WellFormedState(s: GameState) {
    WellFormed(s.board) && PieceOk(s.current) && PieceOk(s.next) && PieceOk(s.hold)
  }

  /** The invariant of every reachable state: while the game runs, a current piece exists and
      sits at a position the collision rule accepts. */
  ghost predicate Inv(s: GameState) {
    && WellFormedState(s)
    && ProgressConsistent(s)
    && (s.running ==> s.current.Some? && Fits(s.board, s.current.value, s.x, s.y))
  }

  /** The step guard shared by move, rotate, drop and hard drop. */
  predicate Active(s: GameState) {
    s.running && !s.paused && s.current.Some?
  }

  /** Only score, level, lines and drop interval may differ. */
  predicate SameExceptProgress(s: GameState, t: GameState) {
    t == s.(score := t.score, level := t.level, lines := t.lines, dropInterval := t.dropInterval)
  }

  /** The bookkeeping after clearLines removed `n` rows. */
  function AwardLines(s: GameState, n: nat): (t: GameState)
    ensures SameExceptProgress(s, t)
    ensures n == 0 ==> t == s
    ensures t.lines == s.lines + n
    ensures t.score == s.score + n * 100 * s.level
    ensures n > 0 ==> t.level == LevelFor(t.lines) && t.dropInterval == DropIntervalFor(t.level) >= 100
    ensures ProgressConsistent(s) ==> ProgressConsistent(t) && t.level >= s.level
  {
    if n == 0 then s
    else
      var lines := s.lines + n;
      var score := s.score + n * 100 * s.level;
      var level := lines / 10 + 1;
      s.(lines := lines, score := score, level := level, dropInterval := Max(100, 1000 - (level - 1) * 50))
  }

  /** The queue step of a spawn: the next piece comes into play, or a fresh draw when there is
      none, and a fresh draw becomes the next piece. */
  function Advance(next: Option<Piece>, rolls: Rolls): (q: (Piece, Piece))
    requires PieceOk(next)
    ensures WellShaped(q.0) && WellShaped(q.1)
    ensures next.Some? ==> q == (next.value, Make(rolls.first))
    ensures next.None? ==> q == (Make(rolls.first), Make(rolls.second))
  {
    if next.Some? then (next.value, Make(rolls.first)) else (Make(rolls.first), Make(rolls.second))
  }

  /** Spawn column: the piece is centred as floor(10/2) - floor(width/2). */
  function SpawnX(p: Piece): int
    requires Rectangular(p.shape)
  {
    Width / 2 - Cols(p.shape) / 2
  }

  /** gameOver: the game stops; board, pieces and score stay as they are for the final display. */
  function GameOver(s: GameState): (t: GameState)
    ensures !t.running
    ensures t.board == s.board && t.current == s.current && t.next == s.next && t.hold == s.hold
    ensures t.x == s.x && t.y == s.y && t.canHold == s.canHold && t.paused == s.paused
    ensures t.score == s.score && t.level == s.level && t.lines == s.lines && t.dropInterval == s.dropInterval
    ensures Inv(s) ==> Inv(t)
  {
    s.(running := false)
  }

  /** spawnPiece: the next piece comes into play at the spawn position, hold is re-armed, and the
      game ends exactly when the new piece collides there. Nothing else changes. */
  function Spawn(s: GameState, rolls: Rolls): (t: GameState)
    requires WellFormed(s.board) && PieceOk(s.next)
    ensures t.current == Some(Advance(s.next, rolls).0) && t.next == Some(Advance(s.next, rolls).1)
    ensures t.x == SpawnX(t.current.value) && t.y == 0 && t.canHold
    ensures t.running <==> s.running && Fits(s.board, t.current.value, t.x, 0)
    ensures t.board == s.board && t.hold == s.hold && t.paused == s.paused
    ensures t.score == s.score && t.level == s.level && t.lines == s.lines && t.dropInterval == s.dropInterval
  {
    var q := Advance(s.next, rolls);
    var t := s.(current := Some(q.0), next := Some(q.1), x := SpawnX(q.0), y := 0, canHold := true);
    if !IsValidMove(t.board, q.0, t.x, t.y) then GameOver(t) else t
  }

  /** Spawning after a valid state gives a valid state. */
  lemma SpawnInv(s: GameState, rolls: Rolls)
    requires WellFormedState(s) && ProgressConsistent(s)
    ensures Inv(Spawn(s, rolls))
  {
  }

  /** holdCurrentPiece. Refused (no change) when inactive or when hold was already used since
      the last spawn. Otherwise the current piece goes to the hold slot; it is replaced by the
      held piece, or, when the slot was empty, by the next piece (a new next piece is drawn). The
      new piece restarts at the spawn position; if it collides there the game ends, else hold
      is used up until the next spawn. */
  function Hold(s: GameState, rolls: Rolls): (t: GameState)
    requires WellFormedState(s)
    ensures !Active(s) || !s.canHold ==> t == s
    ensures Active(s) && s.canHold ==>
      && t.hold == s.current
      && t.current == (if s.hold.None? then Some(Advance(s.next, rolls).0) else s.hold)
      && t.next == (if s.hold.None? then Some(Advance(s.next, rolls).1) else s.next)
      && t.x == SpawnX(t.current.value) && t.y == 0
      && (t.running <==> Fits(s.board, t.current.value, t.x, 0))
      && t.canHold == !t.running
      && t.board == s.board && t.paused == s.paused
      && t.score == s.score && t.level == s.level && t.lines == s.lines && t.dropInterval == s.dropInterval
    ensures Inv(s) ==> Inv(t)
  {
    if !s.running || s.paused || s.current.None? || !s.canHold then s
    else
      var q := Advance(s.next, rolls);
      var cur := if s.hold.None? then q.0 else s.hold.value;
      var nxt := if s.hold.None? then Some(q.1) else s.next;
      var t := s.(hold := s.current, current := Some(cur), next := nxt, x := SpawnX(cur), y := 0);
      if !IsValidMove(t.board, cur, t.x, t.y) then GameOver(t) else t.(canHold := false)
  }

  /** movePiece(dx): the piece shifts by dx columns only when the collision rule accepts the
      shifted position; otherwise, and whenever inactive, nothing changes. */
  function Move(s: GameState, dx: int): (t: GameState)
    requires WellFormed(s.board)
    ensures !Active(s) ==> t == s
    ensures Active(s) ==> t == if Fits(s.board, s.current.value, s.x + dx, s.y) then s.(x := s.x + dx) else s
    ensures Inv(s) ==> Inv(t)
  {
    if !s.running || s.paused || s.current.None? then s
    else if IsValidMove(s.board, s.current.value, s.x + dx, s.y) then s.(x := s.x + dx)
    else s
  }

  /** rotateCurrentPiece: the quarter-turned piece replaces the current one only when the
      collision rule accepts it at the same position (no wall kicks). */
  function RotateCurrent(s: GameState): (t: GameState)
    requires WellFormed(s.board) && PieceOk(s.current)
    ensures !Active(s) ==> t == s
    ensures Active(s) ==> t == if Fits(s.board, Rotate(s.current.value), s.x, s.y) then s.(current := Some(Rotate(s.current.value))) else s
    ensures Inv(s) ==> Inv(t)
  {
    if !s.running || s.paused || s.current.None? then s
    else
      var rotated := Rotate(s.current.value);
      RotateWellShaped(s.current.value);
      if IsValidMove(s.board, rotated, s.x, s.y) then s.(current := Some(rotated)) else s
  }

  /** Lock the current piece where it is, clear full rows, score them, and spawn. */
  function Lock(s: GameState, rolls: Rolls): (t: GameState)
    requires Inv(s) && s.current.Some? && Fits(s.board, s.current.value, s.x, s.y)
    ensures t.board == ClearLines(PlacePiece(s.board, s.current.value, s.x, s.y)).0
    ensures t.lines == s.lines + CountFull(PlacePiece(s.board, s.current.value, s.x, s.y))
    ensures t.score == s.score + CountFull(PlacePiece(s.board, s.current.value, s.x, s.y)) * 100 * s.level
    ensures t.current == Some(Advance(s.next, rolls).0) && t.next == Some(Advance(s.next, rolls).1)
    ensures t.x == SpawnX(t.current.value) && t.y == 0 && t.canHold && t.hold == s.hold && t.paused == s.paused
    ensures t.running <==> s.running && Fits(t.board, t.current.value, t.x, 0)
    ensures Inv(t)
  {
    FitsInsideWalls(s.board, s.current.value, s.x, s.y);
    var placed := PlacePiece(s.board, s.current.value, s.x, s.y);
    var cleared := ClearLines(placed);
    var s1 := AwardLines(s.(board := cleared.0), cleared.1);
    assert WellFormedState(s1) && ProgressConsistent(s1);
    SpawnInv(s1, rolls);
    Spawn(s1, rolls)
  }

  /** dropPiece: one row down when the row below is free, otherwise lock, clear and spawn. */
  function Drop(s: GameState, rolls: Rolls): (t: GameState)
    requires Inv(s)
    ensures !Active(s) ==> t == s
    ensures Active(s) && Fits(s.board, s.current.value, s.x, s.y + 1) ==> t == s.(y := s.y + 1)
    ensures Active(s) && !Fits(s.board, s.current.value, s.x, s.y + 1) ==> t == Lock(s, rolls)
    ensures Inv(t)
  {
    if !s.running || s.paused || s.current.None? then s
    else if IsValidMove(s.board, s.current.value, s.x, s.y + 1) then s.(y := s.y + 1)
    else Lock(s, rolls)
  }

  /** getGhostY: the row a hard drop would land on; the current row when there is no piece. */
  function GhostY(s: GameState): (g: int)
    requires WellFormed(s.board) && PieceOk(s.current)
    ensures s.current.None? ==> g == s.y
    ensures s.current.Some? ==>
      && g >= s.y
      && !Fits(s.board, s.current.value, s.x, g + 1)
      && forall k :: s.y < k <= g ==> Fits(s.board, s.current.value, s.x, k)
  {
    if s.current.None? then s.y else LandingRow(s.board, s.current.value, s.x, s.y)
  }

  /** The loop of hardDrop: move down one row at a time while the next row is free, two points
      per row. It stops on the landing row, having added two points per row descended. */
  function Descend(b: Board, p: Piece, x: int, y: int, score: int): (res: (int, int))
    requires WellFormed(b) && HasBlock(p.shape)
    decreases Height - y
    ensures res.0 == LandingRow(b, p, x, y)
    ensures res.1 == score + 2 * (res.0 - y)
  {
    if IsValidMove(b, p, x, y + 1) then
      FitsAboveFloor(b, p, x, y + 1);
      Descend(b, p, x, y + 1, score + 2)
    else (y, score)
  }

  /** hardDrop: fall to the landing row, then lock, clear and spawn. */
  function HardDrop(s: GameState, rolls: Rolls): (t: GameState)
    requires Inv(s)
    ensures !Active(s) ==> t == s
    ensures Inv(t)
  {
    if !s.running || s.paused || s.current.None? then s
    else
      var d := Descend(s.board, s.current.value, s.x, s.y, s.score);
      Lock(s.(y := d.0, score := d.1), rolls)
  }

  /** The state a hard drop locks: the piece on the ghost row, two points richer per row. */
  function Landed(s: GameState): (t: GameState)
    requires Inv(s) && Active(s)
    ensures t.y == GhostY(s) >= s.y && t.score == s.score + 2 * (GhostY(s) - s.y)
    ensures t == s.(y := t.y, score := t.score)
    ensures Inv(t) && Active(t)
  {
    var g := GhostY(s);
    assert Fits(s.board, s.current.value, s.x, g);
    s.(y := g, score := s.score + 2 * (g - s.y))
  }

  /** A hard drop is a lock of the piece on the ghost row, after adding exactly two points per
      row descended; the lock then clears, scores, spawns and checks for game over as usual. */
  lemma HardDropLandsOnGhost(s: GameState, rolls: Rolls)
    requires Inv(s) && Active(s)
    ensures HardDrop(s, rolls) == Lock(Landed(s), rolls)
    ensures InsideWalls(s.current.value, s.x, GhostY(s))
    ensures HardDrop(s, rolls).board == ClearLines(PlacePiece(s.board, s.current.value, s.x, GhostY(s))).0
    ensures HardDrop(s, rolls).score ==
              s.score + 2 * (GhostY(s) - s.y)
              + CountFull(PlacePiece(s.board, s.current.value, s.x, GhostY(s))) * 100 * s.level
    ensures HardDrop(s, rolls).lines == s.lines + CountFull(PlacePiece(s.board, s.current.value, s.x, GhostY(s)))
  {
    var p := s.current.value;
    var g := GhostY(s);
    assert Fits(s.board, p, s.x, g);
    FitsInsideWalls(s.board, p, s.x, g);
    var d := Descend(s.board, p, s.x, s.y, s.score);
    assert d == (g, s.score + 2 * (g - s.y));
    assert HardDrop(s, rolls) == Lock(Landed(s), rolls);
  }

  /** The ArrowDown key: a drop, then one bonus point, even when the drop did nothing because
      the game was paused. */
  function SoftDrop(s: GameState, rolls: Rolls): (t: GameState)
    requires Inv(s)
    ensures !s.running ==> t == s
    ensures s.running ==> t.score == Drop(s, rolls).score + 1
    ensures s.running ==> t == Drop(s, rolls).(score := t.score)
    ensures Inv(t)
  {
    if !s.running then s
    else
      var d := Drop(s, rolls);
      d.(score := d.score + 1)
  }

  /** pauseGame: toggles the paused flag of a running game. */
  function Pause(s: GameState): (t: GameState)
    ensures !s.running ==> t == s
    ensures s.running ==> t == s.(paused := !s.paused)
    ensures Inv(s) ==> Inv(t)
  {
    if !s.running then s else s.(paused := !s.paused)
  }

  /** A rectangular shape no wider and no taller than the board fits at the spawn position of an
      empty board. */
  lemma SpawnFitsOnEmptyBoard(p: Piece)
    requires Rectangular(p.shape) && |p.shape| <= Height && Cols(p.shape) <= Width
    ensures Fits(EmptyBoard(), p, SpawnX(p), 0)
  {
  }

  /** resetGame: empty board, zero score and lines, level 1, 1000 ms interval, no pieces, hold
      re-armed, then a spawn. */
  function Reset(s: GameState, rolls: Rolls): (t: GameState)
    ensures t.board == EmptyBoard() && t.score == 0 && t.level == 1 && t.lines == 0 && t.dropInterval == 1000
    ensures t.hold == None && t.canHold && t.current == Some(Make(rolls.first)) && t.next == Some(Make(rolls.second))
    ensures t.x == SpawnX(t.current.value) && t.y == 0
    ensures t.running == s.running && t.paused == s.paused
    ensures Inv(t)
  {
    var t := s.(board := EmptyBoard(), score := 0, level := 1, lines := 0, dropInterval := 1000,
                current := None, next := None, hold := None, canHold := true);
    SpawnFitsOnEmptyBoard(Make(rolls.first));
    Spawn(t, rolls)
  }

  /** startGame: ignored while running; otherwise a reset game that runs, unpaused. */
  function Start(s: GameState, rolls: Rolls): (t: GameState)
    ensures s.running ==> t == s
    ensures !s.running ==> t == Reset(s, rolls).(running := true, paused := false)
    ensures !s.running ==> Inv(t) && Active(t) && t.board == EmptyBoard() && t.score == 0
    ensures Inv(s) ==> Inv(t)
  {
    if s.running then s
    else
      var r := Reset(s, rolls);
      SpawnFitsOnEmptyBoard(r.current.value);
      r.(running := true, paused := false)
  }

  /** The keydown handler: nothing while the game is not running; otherwise the key's step. */
  function HandleKey(s: GameState, key: Key, rolls: Rolls): (t: GameState)
    requires Inv(s)
    ensures !s.running ==> t == s
    ensures s.running && key == ArrowLeft ==> t == Move(s, -1)
    ensures s.running && key == ArrowRight ==> t == Move(s, 1)
    ensures s.running && key == ArrowDown ==> t == SoftDrop(s, rolls)
    ensures s.running && key == ArrowUp ==> t == RotateCurrent(s)
    ensures s.running && key == Space ==> t == Pause(s)
    ensures s.running && key == KeyC ==> t == Hold(s, rolls)
    ensures s.running && key == KeyS(false) ==> t == HardDrop(s, rolls)
    ensures key == KeyS(true) || key == OtherKey ==> t == s
    ensures Inv(t)
  {
    if !s.running then s
    else match key
      case ArrowLeft => Move(s, -1)
      case ArrowRight => Move(s, 1)
      case ArrowDown => SoftDrop(s, rolls)
      case ArrowUp => RotateCurrent(s)
      case Space => Pause(s)
      case KeyC => Hold(s, rolls)
      case KeyS(modified) => if modified then s else HardDrop(s, rolls)
      case OtherKey => s
  }

  /** Everything that can happen to the game: a key, the timer's drop, the two buttons. */
  datatype Event = Press(key: Key, rolls: Rolls) | TimerDrop(rolls: Rolls) | StartButton(rolls: Rolls) | PauseButton

  /** Once the game is over only the start button does anything. */
  lemma StoppedUntilStart(s: GameState, e: Event)
    requires Inv(s) && !s.running && !e.StartButton?
    ensures Apply(s, e) == s
  {
  }

  function Apply(s: GameState, e: Event): (t: GameState)
    requires Inv(s)
    ensures e.Press? ==> t == HandleKey(s, e.key, e.rolls)
    ensures e.TimerDrop? ==> t == Drop(s, e.rolls)
    ensures e.StartButton? ==> t == Start(s, e.rolls)
    ensures e.PauseButton? ==> t == Pause(s)
    ensures Inv(t)
  {
    match e
    case Press(key, rolls) => HandleKey(s, key, rolls)
    case TimerDrop(rolls) => Drop(s, rolls)
    case StartButton(rolls) => Start(s, rolls)
    case PauseButton => Pause(s)
  }

  /** The state after a sequence of events from `s`. */
  function Run(s: GameState, events: seq<Event>): (t: GameState)
    requires Inv(s)
    decreases |events|
    ensures Inv(t)
  {
    if |events| == 0 then s
    else
      var s' := Apply(s, events[0]);
      Run(s', events[1..])
  }

  /** In every state reachable from the initial page, the board is 20 by 10 and, while the game
      runs, the falling piece sits at a position the collision rule accepts. */
  lemma ReachableStatesValid(events: seq<Event>)
    ensures WellFormed(Run(Initial(), events).board)
    ensures Run(Initial(), events).running ==>
              Run(Initial(), events).current.Some? &&
              Fits(Run(Initial(), events).board, Run(Initial(), events).current.value, Run(Initial(), events).x, Run(Initial(), events).y)
  {
  }
}

=== FILE: jstext.dfy ===
/** The two JavaScript string built-ins the leaderboard server relies on:
    String.prototype.trim (section 22.1.3.32 of ECMA-262) and the global parseInt with no radix
    (section 19.2.5 of ECMA-262). */
module JsText {
  import opened Wrappers

  /** The WhiteSpace and LineTerminator code points of ECMA-262 (sections 12.2 and 12.3):
      what trim removes and what parseInt skips before a number. */
  predicate IsWhiteSpace(c: char) {
    || c == '\t' || c == '\n' || c == '\U{000B}' || c == '\U{000C}' || c == '\r' || c == ' '
    || c == '\U{00A0}' || c == '\U{1680}' || ('\U{2000}' <= c <= '\U{200A}')
    || c == '\U{2028}' || c == '\U{2029}' || c == '\U{202F}' || c == '\U{205F}'
    || c == '\U{3000}' || c == '\U{FEFF}'
  }

  /** Drops the leading white space: the result is the suffix of `s` that starts at its first
      non-white-space character. */
  function TrimStart(s: string): (r: string)
    ensures |r| <= |s| && r == s[|s| - |r|..]
    ensures forall k :: 0 <= k < |s| - |r| ==> IsWhiteSpace(s[k])
    ensures |r| > 0 ==> !IsWhiteSpace(r[0])
  {
    if |s| > 0 && IsWhiteSpace(s[0]) then TrimStart(s[1..]) else s
  }

  /** Drops the trailing white space: the result is the prefix of `s` that ends at its last
      non-white-space character. */
  function TrimEnd(s: string): (r: string)
    ensures |r| <= |s| && r == s[..|r|]
    ensures forall k :: |r| <= k < |s| ==> IsWhiteSpace(s[k])
    ensures |r| > 0 ==> !IsWhiteSpace(r[|r| - 1])
  {
    if |s| > 0 && IsWhiteSpace(s[|s| - 1]) then TrimEnd(s[..|s| - 1]) else s
  }

  /** `r` is the slice of `s` starting at `i`, and everything around it is white space. */
  ghost predicate PaddedSlice(s: string, r: string, i: int) {
    && 0 <= i <= |s| - |r|
    && r == s[i..i + |r|]
    && (forall k :: 0 <= k < i ==> IsWhiteSpace(s[k]))
    && (forall k :: i + |r| <= k < |s| ==> IsWhiteSpace(s[k]))
  }

  /** String.prototype.trim: a slice of `s` with only white space around it and no white space
      at either of its ends. */
  function Trim(s: string): (r: string)
    ensures |r| <= |s|
    ensures |r| > 0 ==> !IsWhiteSpace(r[0]) && !IsWhiteSpace(r[|r| - 1])
    ensures exists i :: PaddedSlice(s, r, i)
  {
    var t := TrimStart(s);
    var r := TrimEnd(t);
    var i := |s| - |t|;
    assert PaddedSlice(s, r, i);
    r
  }

  /** Nothing to drop in front of a string that does not start with white space. */
  lemma TrimStartNoop(s: string)
    requires |s| == 0 || !IsWhiteSpace(s[0])
    ensures TrimStart(s) == s
  {
  }

  /** Nothing to drop at the end of a string that does not end with white space. */
  lemma TrimEndNoop(s: string)
    requires |s| == 0 || !IsWhiteSpace(s[|s| - 1])
    ensures TrimEnd(s) == s
  {
  }

  /** A string of white space only trims to the empty string. */
  lemma {:induction false} TrimBlank(s: string)
    requires forall k :: 0 <= k < |s| ==> IsWhiteSpace(s[k])
    ensures TrimStart(s) == [] && Trim(s) == []
  {
    if |s| > 0 {
      TrimBlank(s[1..]);
    }
  }

  /** Trimming twice is trimming once. */
  lemma TrimIdempotent(s: string)
    ensures Trim(Trim(s)) == Trim(s)
  {
    var r := Trim(s);
    TrimStartNoop(r);
    TrimEndNoop(r);
  }

  /** The value of a digit character in radix 36 ('0'..'9', then 'a'..'z' or 'A'..'Z');
      36 for any other character. */
  function DigitValue(c: char): (v: nat)
    ensures v <= 36
  {
    if '0' <= c <= '9' then c as int - '0' as int
    else if 'a' <= c <= 'z' then c as int - 'a' as int + 10
    else if 'A' <= c <= 'Z' then c as int - 'A' as int + 10
    else 36
  }

  predicate IsDigitIn(c: char, radix: nat) {
    DigitValue(c) < radix
  }

  /** Length of the longest prefix of `s` made of radix-`radix` digits. */
  function DigitPrefix(s: string, radix: nat): (n: nat)
    ensures n <= |s|
    ensures forall k :: 0 <= k < n ==> IsDigitIn(s[k], radix)
    ensures n < |s| ==> !IsDigitIn(s[n], radix)
  {
    if |s| > 0 && IsDigitIn(s[0], radix) then 1 + DigitPrefix(s[1..], radix) else 0
  }

  /** The number written by a string of digits, most significant first. */
  function DigitsValue(ds: string, radix: nat): nat {
    if |ds| == 0 then 0 else DigitsValue(ds[..|ds| - 1], radix) * radix + DigitValue(ds[|ds| - 1])
  }

  /** The digits part of parseInt, after the sign: base 16 after a "0x" or "0X" prefix, base 10
      otherwise, converting the longest run of digits; None when there is no digit. */
  function ParseUnsigned(u: string): (r: Option<nat>)
    ensures r.Some? ==> |u| > 0 && '0' <= u[0] <= '9'
    ensures |u| > 0 && (forall k :: 0 <= k < |u| ==> '0' <= u[k] <= '9') ==> r == Some(DigitsValue(u, 10))
  {
    var hex := |u| >= 2 && u[0] == '0' && (u[1] == 'x' || u[1] == 'X');
    var radix := if hex then 16 else 10;
    var v := if hex then u[2..] else u;
    var n := DigitPrefix(v, radix);
    var r := if n == 0 then None else Some(DigitsValue(v[..n], radix));
    if forall k :: 0 <= k < |u| ==> '0' <= u[k] <= '9' then
      AllDigitsPrefix(u);
      assert u[..|u|] == u;
      r
    else r
  }

  /** parseInt(s) with no radix: skip leading white space, take an optional sign, then read the
      digits. No digit at all gives NaN, written None. */
  function ParseInt(s: string): (r: Option<int>)
    ensures TrimStart(s) == [] ==> r.None?
    ensures var t := TrimStart(s); r.Some? && |t| > 0 && t[0] == '-' ==> r.value <= 0
    ensures var t := TrimStart(s); r.Some? && |t| > 0 && t[0] != '-' ==> r.value >= 0
    ensures var t := TrimStart(s); |t| > 0 && '0' <= t[0] <= '9' ==> r == ParseUnsigned(t)
  {
    var t := TrimStart(s);
    var signed := |t| > 0 && (t[0] == '-' || t[0] == '+');
    match ParseUnsigned(if signed then t[1..] else t)
    case None => None
    case Some(m) =>
      var v: int := m;
      Some(if signed && t[0] == '-' then -v else v)
  }

  /** Decimal rendering of a natural number, most significant digit first, no leading zeros. */
  function NatToString(n: nat): (s: string)
    ensures |s| > 0 && forall k :: 0 <= k < |s| ==> '0' <= s[k] <= '9'
    ensures n > 0 ==> s[0] != '0'
  {
    var d := ['0' + ((n % 10) as char)];
    if n < 10 then d else NatToString(n / 10) + d
  }

  /** Decimal rendering of an integer, as in String(n) or a template literal. */
  function IntToString(n: int): string {
    if n < 0 then "-" + NatToString(-n) else NatToString(n)
  }

  lemma {:induction false} NatToStringValue(n: nat)
    ensures DigitsValue(NatToString(n), 10) == n
  {
    var s := NatToString(n);
    assert s[..|s| - 1] == if n < 10 then [] else NatToString(n / 10);
    if n >= 10 {
      NatToStringValue(n / 10);
    }
  }

  lemma AllDigitsPrefix(s: string)
    requires forall k :: 0 <= k < |s| ==> '0' <= s[k] <= '9'
    ensures DigitPrefix(s, 10) == |s|
  {
    var n := DigitPrefix(s, 10);
    if n < |s| {
      assert !IsDigitIn(s[n], 10);
    }
  }

  /** The digits part reads back the decimal rendering of every natural number. */
  lemma ParseUnsignedDecimal(m: nat)
    ensures ParseUnsigned(NatToString(m)) == Some(m)
  {
    var digits := NatToString(m);
    NatToStringValue(m);
    AllDigitsPrefix(digits);
    assert digits[..|digits|] == digits;
  }

  /** A string that starts with a digit is read without a sign. */
  lemma ParseIntUnsigned(s: string, m: nat)
    requires |s| > 0 && '0' <= s[0] <= '9'
    requires ParseUnsigned(s) == Some(m)
    ensures ParseInt(s) == Some(m)
  {
    TrimStartNoop(s);
  }

  /** A string that starts with '-' is read as the negation of what follows. */
  lemma ParseIntMinus(s: string, m: nat)
    requires |s| > 0 && s[0] == '-'
    requires ParseUnsigned(s[1..]) == Some(m)
    ensures ParseInt(s) == Some(-(m as int))
  {
    TrimStartNoop(s);
    assert TrimStart(s) == s;
    var v: int := m;
    assert ParseInt(s) == Some(-v);
  }

  /** parseInt reads back the decimal rendering of every integer. */
  lemma ParseIntRoundTrip(n: int)
    ensures ParseInt(IntToString(n)) == Some(n)
  {
    if n < 0 {
      var digits := NatToString(-n);
      ParseUnsignedDecimal(-n);
      assert ("-" + digits)[1..] == digits;
      ParseIntMinus("-" + digits, -n);
    } else {
      ParseUnsignedDecimal(n);
      ParseIntUnsigned(NatToString(n), n);
    }
  }

  /** Without a decimal digit there is neither a "0x" prefix nor a first digit. */
  lemma ParseUnsignedNoDigit(u: string)
    requires forall k :: 0 <= k < |u| ==> !('0' <= u[k] <= '9')
    ensures ParseUnsigned(u) == None
  {
    if |u| > 0 {
      assert !IsDigitIn(u[0], 10);
    }
  }

  /** A string with no decimal digit in it parses to NaN. */
  lemma ParseIntNoDigit(s: string)
    requires forall k :: 0 <= k < |s| ==> !('0' <= s[k] <= '9')
    ensures ParseInt(s) == None
  {
    var t := TrimStart(s);
    assert forall k :: 0 <= k < |t| ==> t[k] == s[|s| - |t| + k];
    if |t| > 0 && (t[0] == '-' || t[0] == '+') {
      ParseUnsignedNoDigit(t[1..]);
    } else {
      ParseUnsignedNoDigit(t);
    }
  }
}

=== FILE: leaderboard.dfy ===
/** The leaderboard of app.js: an in-memory list of score records with a next-id counter, and the
    three handlers of /api/scores as pure functions returning the response and the new store. */
module Leaderboard {
  import opened Wrappers
  import opened JsText

  /** POST keeps at most this many records. */
  const RetentionCap: int := 100

  /** GET, POST and DELETE answer with at most this many records. */
  const TopCount: int := 10

  datatype Record = Record(id: int, nickname: string, score: int, date: string)

  /** `highScores` and `nextId`. */
  datatype Store = Store(highScores: seq<Record>, nextId: int)

  /** The store the server starts with. */
  function Seed(): (st: Store)
    ensures |st.highScores| == 5 && st.nextId == |st.highScores| + 1
    ensures forall i :: 0 <= i < |st.highScores| ==> st.highScores[i].id == i + 1
    ensures forall i :: 0 < i < |st.highScores| ==> st.highScores[i].score < st.highScores[i - 1].score
  {
    Store([
      Record(1, "TetrisKing", 5500, "2024-05-20"),
      Record(2, "CS_Student", 3200, "2024-05-21"),
      Record(3, "BlockMaster", 2800, "2024-05-22"),
      Record(4, "LineEraser", 2400, "2024-05-23"),
      Record(5, "GridWarrior", 2000, "2024-05-24")
    ], 6)
  }

  /** A field of the parsed JSON request body; `Missing` is an absent field (undefined) and
      `Composite` an object or array. JSON cannot carry NaN; Infinity is not modelled. */
  datatype JsonValue = Missing | Null | Boolean(b: bool) | Number(n: real) | Text(s: string) | Composite

  /** JavaScript truthiness. */
  predicate Truthy(v: JsonValue) {
    match v
    case Missing => false
    case Null => false
    case Boolean(b) => b
    case Number(n) => n != 0.0
    case Text(s) => |s| > 0
    case Composite => true
  }

  datatype PostBody = PostBody(nickname: JsonValue, score: JsonValue)

  /** The response: 200 with the top records, 400, 404, or 500 (an exception in the handler). */
  datatype Response = Ok(topScores: seq<Record>) | BadRequest | NotFound | InternalError

  // ----- ordering -----

  ghost predicate SortedDesc(s: seq<Record>) {
    forall i, j :: 0 <= i < j < |s| ==> s[i].score >= s[j].score
  }

  /** The records of `s` whose score is `v`, in order. */
  function WithScore(s: seq<Record>, v: int): seq<Record> {
    if |s| == 0 then [] else (if s[0].score == v then [s[0]] else []) + WithScore(s[1..], v)
  }

  lemma {:induction false} WithScoreAppend(a: seq<Record>, b: seq<Record>, v: int)
    ensures WithScore(a + b, v) == WithScore(a, v) + WithScore(b, v)
  {
    if |a| > 0 {
      assert (a + b)[1..] == a[1..] + b;
      WithScoreAppend(a[1..], b, v);
    } else {
      assert a + b == b;
    }
  }

  /** One step of a stable insertion sort by descending score: `x` goes after every record
      scoring at least as much, before the first that scores less. */
  function Insert(s: seq<Record>, x: Record): (r: seq<Record>)
    ensures |r| == |s| + 1
    ensures multiset(r) == multiset(s) + multiset{x}
  {
    if |s| == 0 then [x]
    else if s[0].score >= x.score then
      var r := [s[0]] + Insert(s[1..], x);
      assert s == [s[0]] + s[1..];
      r
    else [x] + s
  }

  /** Inserting into a sorted list gives a sorted list. */
  lemma {:induction false} InsertSorted(s: seq<Record>, x: Record)
    requires SortedDesc(s)
    ensures SortedDesc(Insert(s, x))
  {
    if |s| > 0 && s[0].score >= x.score {
      InsertSorted(s[1..], x);
      var r := Insert(s, x);
      assert r == [s[0]] + Insert(s[1..], x);
      assert r[1..] == Insert(s[1..], x);
      forall j | 1 <= j < |r|
        ensures r[0].score >= r[j].score
      {
        assert r[j] == Insert(s[1..], x)[j - 1];
        assert r[j] in multiset(Insert(s[1..], x));
        assert r[j] in multiset(s[1..]) + multiset{x};
        if r[j] != x {
          var k :| 0 <= k < |s[1..]| && s[1..][k] == r[j];
          assert s[k + 1] == r[j];
        }
      }
    }
  }

  /** No record of a list sorted by descending score, headed by a record scoring below `v`,
      scores `v`. */
  lemma {:induction false} WithScoreBelow(s: seq<Record>, v: int)
    requires SortedDesc(s)
    requires |s| > 0 ==> s[0].score < v
    ensures WithScore(s, v) == []
  {
    if |s| > 0 {
      WithScoreBelow(s[1..], v);
    }
  }

  /** Insertion is stable: among the records of any one score, the inserted record comes last. */
  lemma WithScoreCons(h: Record, t: seq<Record>, v: int)
    ensures WithScore([h] + t, v) == (if h.score == v then [h] else []) + WithScore(t, v)
  {
    assert ([h] + t)[1..] == t;
  }

  /** Where `x` scores no more than the head, insertion keeps the head in front. */
  lemma InsertPast(s: seq<Record>, x: Record)
    requires |s| > 0 && s[0].score >= x.score
    ensures Insert(s, x) == [s[0]] + Insert(s[1..], x)
  {
  }

  /** Where `x` outscores the head, insertion puts it in front. */
  lemma InsertFront(s: seq<Record>, x: Record)
    requires |s| > 0 && s[0].score < x.score
    ensures Insert(s, x) == [x] + s
  {
  }

  lemma SortedTail(s: seq<Record>)
    requires |s| > 0 && SortedDesc(s)
    ensures SortedDesc(s[1..])
  {
  }

  /** Records of one score before and after putting the same record in front of two lists. */
  lemma WithScoreConsStep(h: Record, t: seq<Record>, u: seq<Record>, extra: seq<Record>, v: int)
    requires WithScore(t, v) == WithScore(u, v) + extra
    ensures WithScore([h] + t, v) == WithScore([h] + u, v) + extra
  {
    WithScoreCons(h, t, v);
    WithScoreCons(h, u, v);
    var head := if h.score == v then [h] else [];
    Associative(head, WithScore(u, v), extra);
  }

  /** The step of `InsertWithScore` where `x` goes past the head of the list. */
  lemma InsertWithScorePast(s: seq<Record>, x: Record, v: int)
    requires |s| > 0 && s[0].score >= x.score
    requires WithScore(Insert(s[1..], x), v) == WithScore(s[1..], v) + (if x.score == v then [x] else [])
    ensures WithScore(Insert(s, x), v) == WithScore(s, v) + (if x.score == v then [x] else [])
  {
    InsertPast(s, x);
    WithScoreConsStep(s[0], Insert(s[1..], x), s[1..], if x.score == v then [x] else [], v);
    assert [s[0]] + s[1..] == s;
  }

  lemma {:induction false} InsertWithScore(s: seq<Record>, x: Record, v: int)
    requires SortedDesc(s)
    ensures WithScore(Insert(s, x), v) == WithScore(s, v) + (if x.score == v then [x] else [])
  {
    if |s| == 0 {
      WithScoreCons(x, [], v);
    } else if s[0].score >= x.score {
      SortedTail(s);
      InsertWithScore(s[1..], x, v);
      InsertWithScorePast(s, x, v);
    } else {
      InsertFront(s, x);
      WithScoreCons(x, s, v);
      if x.score == v {
        WithScoreBelow(s, v);
      }
    }
  }

  /** Array.prototype.sort with comparator (a, b) => b.score - a.score. The sort is stable, so
      the result is the unique arrangement that is sorted by descending score, is a permutation of
      the input, and keeps the records of each score in their input order. */
  function SortDesc(s: seq<Record>): (r: seq<Record>)
    ensures SortedDesc(r)
    ensures multiset(r) == multiset(s)
    ensures forall v :: WithScore(r, v) == WithScore(s, v)
  {
    if |s| == 0 then []
    else
      var init, last := s[..|s| - 1], s[|s| - 1];
      assert s == init + [last];
      var sortedInit := SortDesc(init);
      var r := Insert(sortedInit, last);
      InsertSorted(sortedInit, last);
      assert forall v :: WithScore(r, v) == WithScore(s, v) by {
        forall v ensures WithScore(r, v) == WithScore(s, v) {
          WithScoreAppend(init, [last], v);
          InsertWithScore(sortedInit, last, v);
        }
      }
      r
  }

  /** Appending a record that scores no more than any other is already sorted. */
  lemma {:induction false} InsertLowest(s: seq<Record>, x: Record)
    requires forall i :: 0 <= i < |s| ==> s[i].score >= x.score
    ensures Insert(s, x) == s + [x]
  {
    if |s| > 0 {
      InsertLowest(s[1..], x);
      assert s == [s[0]] + s[1..];
    }
  }

  /** Sorting a list that is already in descending score order leaves it as it is. */
  lemma {:induction false} SortSorted(s: seq<Record>)
    requires SortedDesc(s)
    ensures SortDesc(s) == s
  {
    if |s| > 0 {
      SortSorted(s[..|s| - 1]);
      InsertLowest(s[..|s| - 1], s[|s| - 1]);
    }
  }

  lemma SortSortedIfSorted(s: seq<Record>)
    ensures SortedDesc(s) ==> SortDesc(s) == s
  {
    if SortedDesc(s) {
      SortSorted(s);
    }
  }

  // ----- the store invariant -----

  /** How two records of the list relate when `a` comes first: a score at least as high, a
      different id, and, on equal scores, the earlier insertion (the smaller id) first. */
  predicate Before(a: Record, b: Record) {
    a.score >= b.score && a.id != b.id && (a.score == b.score ==> a.id < b.id)
  }

  ghost predicate Ordered(s: seq<Record>) {
    forall i, j :: 0 <= i < j < |s| ==> Before(s[i], s[j])
  }

  /** The invariant of the store: ordered (hence sorted and with unique ids), every id below the
      counter and positive, scores non-negative, at most 100 records. */
  ghost predicate Valid(st: Store) {
    && Ordered(st.highScores)
    && |st.highScores| <= RetentionCap
    && st.nextId > 0
    && forall i :: 0 <= i < |st.highScores| ==>
         0 < st.highScores[i].id < st.nextId && st.highScores[i].score >= 0
  }

  lemma SeedValid()
    ensures Valid(Seed())
  {
  }

  lemma OrderedIsSorted(s: seq<Record>)
    requires Ordered(s)
    ensures SortedDesc(s)
  {
  }

  /** Inserting a record whose id is above every id keeps the list ordered. */
  lemma {:induction false} InsertOrdered(s: seq<Record>, x: Record)
    requires Ordered(s)
    requires forall i :: 0 <= i < |s| ==> s[i].id < x.id
    ensures Ordered(Insert(s, x))
  {
    if |s| > 0 && s[0].score >= x.score {
      InsertOrdered(s[1..], x);
      var r := Insert(s, x);
      assert r == [s[0]] + Insert(s[1..], x);
      forall j | 1 <= j < |r|
        ensures Before(r[0], r[j])
      {
        assert r[j] in multiset(Insert(s[1..], x));
        assert r[j] in multiset(s[1..]) + multiset{x};
        if r[j] != x {
          var k :| 0 <= k < |s[1..]| && s[1..][k] == r[j];
          assert s[k + 1] == r[j];
        }
      }
    }
  }

  // ----- GET -----

  /** The first min(10, |s|) records. */
  function Top(s: seq<Record>): (top: seq<Record>)
    ensures |top| == Min(TopCount, |s|)
    ensures top == s[..|top|]
  {
    if |s| > TopCount then s[..TopCount] else s
  }

  /** GET /api/scores: a sorted copy, cut to ten records; the store is not touched. On a valid
      store the answer is exactly the first min(10, n) stored records. */
  function Get(st: Store): (top: seq<Record>)
    ensures |top| == Min(TopCount, |st.highScores|)
    ensures SortedDesc(top)
    ensures multiset(top) <= multiset(st.highScores)
    ensures SortedDesc(st.highScores) ==> top == st.highScores[..|top|]
  {
    var sorted := SortDesc(st.highScores);
    var top := Top(sorted);
    assert sorted == top + sorted[|top|..];
    assert multiset(sorted) == multiset(top) + multiset(sorted[|top|..]);
    SortSortedIfSorted(st.highScores);
    top
  }

  // ----- POST -----

  /** The 400 test: a falsy nickname, a score that is not a number, or a negative score. */
  predicate Rejected(body: PostBody): (b: bool)
    ensures body.nickname.Missing? || body.nickname.Null? || body.nickname == Text("") ==> b
    ensures !body.score.Number? ==> b
    ensures body.nickname.Text? && |body.nickname.s| > 0 && body.score.Number? && body.score.n >= 0.0 ==> !b
  {
    !Truthy(body.nickname) || !body.score.Number? || body.score.n < 0.0
  }

  /** Passes the 400 test and `nickname.trim()` can be called. */
  predicate Accepted(body: PostBody) {
    !Rejected(body) && body.nickname.Text?
  }

  /** The record an accepted POST stores: the next id, the trimmed nickname, the floored score,
      and the date (the YYYY-MM-DD part of the current time, supplied by the caller). */
  function NewRecord(st: Store, body: PostBody, today: string): (rec: Record)
    requires Accepted(body)
    ensures rec.id == st.nextId && rec.score >= 0
    ensures rec.score as real <= body.score.n < rec.score as real + 1.0
    ensures rec.nickname == Trim(body.nickname.s)
    ensures rec.date == today
  {
    Record(st.nextId, Trim(body.nickname.s), body.score.n.Floor, today)
  }

  /** The retention cut: a list longer than the cap keeps only its first 100 records. */
  function Cut(s: seq<Record>): (r: seq<Record>)
    ensures |r| == Min(RetentionCap, |s|)
    ensures r == s[..|r|]
  {
    if |s| > RetentionCap then s[..RetentionCap] else s
  }

  /** The list after an accepted POST: appended, re-sorted, cut to 100. */
  function Admit(hs: seq<Record>, rec: Record): (r: seq<Record>)
    ensures |r| == Min(RetentionCap, |hs| + 1)
    ensures SortedDesc(r)
  {
    var sorted := SortDesc(hs + [rec]);
    Cut(sorted)
  }

  /** POST /api/scores. A rejected body gets 400 and changes nothing. A truthy nickname that is
      not a string passes the test but makes `nickname.trim()` throw after `nextId++` already ran:
      500, the counter advanced, the list unchanged. Otherwise the new record is appended, the list
      re-sorted and cut to 100 records, the counter advanced, and the first ten records returned. */
  function Post(st: Store, body: PostBody, today: string): (res: (Response, Store))
    ensures Rejected(body) ==> res == (BadRequest, st)
    ensures !Rejected(body) && !Accepted(body) ==> res == (InternalError, st.(nextId := st.nextId + 1))
    ensures Accepted(body) ==>
      && res.1.nextId == st.nextId + 1
      && res.1.highScores == Admit(st.highScores, NewRecord(st, body, today))
      && |res.1.highScores| == Min(RetentionCap, |st.highScores| + 1)
      && SortedDesc(res.1.highScores)
      && res.0 == Ok(Top(res.1.highScores))
  {
    if !Truthy(body.nickname) || !body.score.Number? || body.score.n < 0.0 then (BadRequest, st)
    else if !body.nickname.Text? then (InternalError, st.(nextId := st.nextId + 1))
    else
      var kept := Admit(st.highScores, NewRecord(st, body, today));
      (Ok(Top(kept)), Store(kept, st.nextId + 1))
  }

  /** Every record of an insertion result is the inserted one or came from the list. */
  lemma InsertMembers(s: seq<Record>, x: Record)
    ensures forall y :: y in Insert(s, x) ==> y == x || y in s
  {
    forall y | y in Insert(s, x)
      ensures y == x || y in s
    {
      assert y in multiset(Insert(s, x));
    }
  }

  /** On an ordered list, the re-sort is the insertion of the new record after every record
      scoring at least as much; its result is ordered when the new id is above every stored id,
      and holds only the new record and stored ones. */
  lemma AdmitOrdered(hs: seq<Record>, rec: Record)
    requires Ordered(hs)
    requires forall i :: 0 <= i < |hs| ==> hs[i].id < rec.id
    ensures Admit(hs, rec) == Cut(Insert(hs, rec))
    ensures Ordered(Admit(hs, rec))
    ensures forall y :: y in Admit(hs, rec) ==> y == rec || y in hs
  {
    var all := hs + [rec];
    assert all[..|all| - 1] == hs;
    OrderedIsSorted(hs);
    SortSorted(hs);
    assert SortDesc(all) == Insert(hs, rec);
    InsertOrdered(hs, rec);
    InsertMembers(hs, rec);
  }

  /** An accepted POST keeps the store valid: the new record takes its place after every record
      scoring at least as much (so earlier entries win ties), and its id is above every id stored
      before. A rejected or failed POST keeps it valid trivially. */
  lemma PostValid(st: Store, body: PostBody, today: string)
    requires Valid(st)
    ensures Valid(Post(st, body, today).1)
  {
    if Accepted(body) {
      var rec := NewRecord(st, body, today);
      AdmitValid(st, rec);
      assert Post(st, body, today).1 == Store(Admit(st.highScores, rec), st.nextId + 1);
    }
  }

  /** Admitting a record that carries the next id and a non-negative score, and advancing the
      counter, keeps the store valid. */
  lemma AdmitValid(st: Store, rec: Record)
    requires Valid(st) && rec.id == st.nextId && rec.score >= 0
    ensures Valid(Store(Admit(st.highScores, rec), st.nextId + 1))
  {
    AdmitOrdered(st.highScores, rec);
    var kept := Admit(st.highScores, rec);
    forall i | 0 <= i < |kept|
      ensures 0 < kept[i].id < st.nextId + 1 && kept[i].score >= 0
    {
      assert kept[i] in kept;
      if kept[i] != rec {
        var j :| 0 <= j < |st.highScores| && st.highScores[j] == kept[i];
      }
    }
  }

  /** The 400 test looks at the untrimmed nickname: a nickname of white space only is accepted
      and stored as the empty string. */
  lemma PostBlankNickname(st: Store, name: string, score: real, today: string)
    requires |name| > 0 && forall k :: 0 <= k < |name| ==> IsWhiteSpace(name[k])
    requires score >= 0.0
    ensures Post(st, PostBody(Text(name), Number(score)), today).0.Ok?
    ensures NewRecord(st, PostBody(Text(name), Number(score)), today).nickname == ""
  {
    var body := PostBody(Text(name), Number(score));
    assert Truthy(body.nickname);
    assert Accepted(body);
    TrimBlank(name);
    assert NewRecord(st, body, today).nickname == "";
  }

  /** An accepted POST gives the new record the id nextId, above every id stored before, and
      stores it, unless the list was full and every kept record scores at least as much. */
  lemma PostStoresRecord(st: Store, body: PostBody, today: string)
    requires Valid(st) && Accepted(body)
    ensures forall i :: 0 <= i < |st.highScores| ==> st.highScores[i].id < NewRecord(st, body, today).id
    ensures var kept := Post(st, body, today).1.highScores;
            NewRecord(st, body, today) in kept
            || (|kept| == RetentionCap && forall i :: 0 <= i < |kept| ==> kept[i].score >= NewRecord(st, body, today).score)
  {
    var rec := NewRecord(st, body, today);
    var all := st.highScores + [rec];
    var sorted := SortDesc(all);
    assert rec in multiset(sorted) by { assert rec in multiset(all); }
    var k :| 0 <= k < |sorted| && sorted[k] == rec;
    if |sorted| > RetentionCap && k >= RetentionCap {
      assert forall i :: 0 <= i < RetentionCap ==> sorted[i].score >= sorted[k].score;
    } else {
      assert rec == Cut(sorted)[k];
    }
  }

  /** In a list sorted by descending score, nothing after position k outscores anything before. */
  lemma SortedSplit(s: seq<Record>, k: int)
    requires SortedDesc(s) && 0 <= k <= |s|
    ensures forall x, y :: x in s[..k] && y in s[k..] ==> x.score >= y.score
  {
    forall x, y | x in s[..k] && y in s[k..]
      ensures x.score >= y.score
    {
      var i :| 0 <= i < k && s[..k][i] == x;
      var j :| 0 <= j < |s| - k && s[k..][j] == y;
      assert s[i] == x && s[k + j] == y;
    }
  }

  /** The cut to 100 keeps the highest scores: the kept records, together with the dropped ones,
      are exactly the old records plus the new one, and no dropped record outscores a kept one. */
  lemma AdmitKeepsHighest(hs: seq<Record>, rec: Record)
    ensures var all := hs + [rec];
            var kept := Admit(hs, rec);
            && multiset(kept) <= multiset(all)
            && forall x, y :: x in kept && y in multiset(all) - multiset(kept) ==> x.score >= y.score
  {
    var all := hs + [rec];
    var sorted := SortDesc(all);
    var kept := Admit(hs, rec);
    var k := |kept|;
    var dropped := sorted[k..];
    assert kept == sorted[..k];
    assert sorted == kept + dropped;
    assert multiset(all) == multiset(kept) + multiset(dropped);
    assert multiset(all) - multiset(kept) == multiset(dropped);
    SortedSplit(sorted, k);
    forall y | y in multiset(all) - multiset(kept)
      ensures y in dropped
    {
    }
  }

  // ----- DELETE -----

  /** Keeps the records whose id differs from the parsed id, in order; NaN (None) differs from
      every id, so it removes nothing. */
  function RemoveId(s: seq<Record>, id: Option<int>): (r: seq<Record>)
    ensures |r| <= |s|
    ensures forall x :: x in r <==> x in s && Some(x.id) != id
    ensures |r| < |s| <==> exists i :: 0 <= i < |s| && Some(s[i].id) == id
    ensures |s| == 1 ==> r == (if Some(s[0].id) == id then [] else s)
  {
    if |s| == 0 then []
    else
      var rest := RemoveId(s[1..], id);
      assert forall i :: 0 < i < |s| ==> s[i] == s[1..][i - 1];
      assert forall i :: 0 <= i < |s| - 1 ==> s[1..][i] == s[i + 1];
      (if Some(s[0].id) == id then [] else [s[0]]) + rest
  }

  /** Filtering a list in store order leaves a list in store order. */
  lemma {:induction false} RemoveIdOrdered(s: seq<Record>, id: Option<int>)
    requires Ordered(s)
    ensures Ordered(RemoveId(s, id))
  {
    if |s| > 0 {
      RemoveIdOrdered(s[1..], id);
      var rest := RemoveId(s[1..], id);
      forall x | x in rest
        ensures Before(s[0], x)
      {
        var k :| 0 <= k < |s[1..]| && s[1..][k] == x;
        assert s[k + 1] == x;
      }
    }
  }

  /** The filter works piecewise: filtering a concatenation filters each part and keeps the
      parts in order. With the single-record case of `RemoveId`, this pins the result as the
      surviving records in their original order. */
  lemma {:induction false} RemoveIdAppend(a: seq<Record>, b: seq<Record>, id: Option<int>)
    ensures RemoveId(a + b, id) == RemoveId(a, id) + RemoveId(b, id)
  {
    if |a| > 0 {
      RemoveIdAppend(a[1..], b, id);
      RemoveIdConsStep(a[0], a[1..] + b, a[1..], RemoveId(b, id), id);
      HeadTail(a, b);
    } else {
      assert a + b == b;
    }
  }

  /** Filtering after putting the same record in front of two lists. */
  lemma RemoveIdConsStep(h: Record, t: seq<Record>, u: seq<Record>, extra: seq<Record>, id: Option<int>)
    requires RemoveId(t, id) == RemoveId(u, id) + extra
    ensures RemoveId([h] + t, id) == RemoveId([h] + u, id) + extra
  {
    RemoveIdCons(h, t, id);
    RemoveIdCons(h, u, id);
    var keep := if Some(h.id) == id then [] else [h];
    Associative(keep, RemoveId(u, id), extra);
  }

  /** A non-empty list is its head followed by its tail, also in front of another list. */
  lemma HeadTail(a: seq<Record>, b: seq<Record>)
    requires |a| > 0
    ensures [a[0]] + a[1..] == a && [a[0]] + (a[1..] + b) == a + b
  {
  }

  lemma Associative(a: seq<Record>, b: seq<Record>, c: seq<Record>)
    ensures a + (b + c) == (a + b) + c
  {
  }

  lemma RemoveIdCons(h: Record, t: seq<Record>, id: Option<int>)
    ensures RemoveId([h] + t, id) == (if Some(h.id) == id then [] else [h]) + RemoveId(t, id)
  {
    assert ([h] + t)[1..] == t;
  }

  /** Filtering out an id no record has changes nothing. */
  lemma {:induction false} RemoveAbsent(s: seq<Record>, id: Option<int>)
    requires forall i :: 0 <= i < |s| ==> Some(s[i].id) != id
    ensures RemoveId(s, id) == s
  {
    if |s| > 0 {
      RemoveAbsent(s[1..], id);
      assert s == [s[0]] + s[1..];
    }
  }

  /** In an ordered list ids are unique, so filtering out the id of one record removes just it. */
  lemma {:induction false} RemoveUniqueId(s: seq<Record>, k: int)
    requires Ordered(s) && 0 <= k < |s|
    ensures |RemoveId(s, Some(s[k].id))| == |s| - 1
  {
    assert forall i :: 0 <= i < |s| - 1 ==> s[1..][i] == s[i + 1];
    if k == 0 {
      assert forall i :: 0 <= i < |s| - 1 ==> Before(s[0], s[1..][i]);
      RemoveAbsent(s[1..], Some(s[0].id));
    } else {
      assert Before(s[0], s[k]);
      RemoveUniqueId(s[1..], k - 1);
    }
  }

  /** DELETE /api/scores/:id. The path segment is read with parseInt and every record with that
      id is removed. When something was removed: 200 with the first ten remaining records; when
      nothing was (unknown id, or NaN): 404 and the store unchanged. */
  function Delete(st: Store, idParam: string): (res: (Response, Store))
    ensures res.0.Ok? <==> exists i :: 0 <= i < |st.highScores| && Some(st.highScores[i].id) == ParseInt(idParam)
    ensures res.0.NotFound? <==> !res.0.Ok?
    ensures res.0.NotFound? ==> res.1 == st
    ensures res.0.Ok? ==> res.1.nextId == st.nextId && res.0.topScores == Top(res.1.highScores)
    ensures res.0.Ok? ==> res.1.highScores == RemoveId(st.highScores, ParseInt(idParam))
    ensures forall x :: x in res.1.highScores <==> x in st.highScores && Some(x.id) != ParseInt(idParam)
  {
    var kept := RemoveId(st.highScores, ParseInt(idParam));
    if |kept| < |st.highScores| then (Ok(Top(kept)), st.(highScores := kept))
    else
      assert forall x :: x in st.highScores ==> Some(x.id) != ParseInt(idParam);
      (NotFound, st)
  }

  /** DELETE keeps the store valid. */
  lemma DeleteValid(st: Store, idParam: string)
    requires Valid(st)
    ensures Valid(Delete(st, idParam).1)
  {
    RemoveIdOrdered(st.highScores, ParseInt(idParam));
    var r := Delete(st, idParam).1;
    forall i | 0 <= i < |r.highScores|
      ensures 0 < r.highScores[i].id < r.nextId && r.highScores[i].score >= 0
    {
      assert r.highScores[i] in st.highScores;
    }
  }

  /** Deleting by the decimal id of a stored record succeeds and removes exactly that record. */
  lemma DeleteStoredId(st: Store, k: int)
    requires Valid(st) && 0 <= k < |st.highScores|
    ensures Delete(st, IntToString(st.highScores[k].id)).0.Ok?
    ensures st.highScores[k] !in Delete(st, IntToString(st.highScores[k].id)).1.highScores
    ensures |Delete(st, IntToString(st.highScores[k].id)).1.highScores| == |st.highScores| - 1
  {
    ParseIntRoundTrip(st.highScores[k].id);
    RemoveUniqueId(st.highScores, k);
  }

  /** A path segment without a decimal digit parses to NaN, which matches no record: 404. */
  lemma DeleteNonNumeric(st: Store, idParam: string)
    requires forall k :: 0 <= k < |idParam| ==> !('0' <= idParam[k] <= '9')
    ensures Delete(st, idParam) == (NotFound, st)
  {
    ParseIntNoDigit(idParam);
  }
}

=== FILE: lineclear.dfy ===
/** clearLines of game.js: the bottom-up scan that removes full rows, and the reference
    description of its result (the non-full rows, in order, under one empty row per removal). */
module LineClear {
  import opened Playfield

  /** Every cell of the row holds a colour. */
  predicate Full(row: Row) {
    forall c :: 0 <= c < |row| ==> row[c] != Empty
  }

  /** Number of full rows. */
  function CountFull(b: Board): nat {
    if |b| == 0 then 0 else CountFull(b[..|b| - 1]) + (if Full(b[|b| - 1]) then 1 else 0)
  }

  /** The rows that are not full, in their original order. */
  function Survivors(b: Board): Board {
    if |b| == 0 then [] else Survivors(b[..|b| - 1]) + (if Full(b[|b| - 1]) then [] else [b[|b| - 1]])
  }

  /** `n` empty rows. */
  function Blank(n: nat): (rows: Board)
    ensures |rows| == n && forall r :: 0 <= r < n ==> rows[r] == EmptyRow()
  {
    seq(n, _ => EmptyRow())
  }

  lemma EmptyRowNotFull()
    ensures !Full(EmptyRow())
  {
    assert EmptyRow()[0] == Empty;
  }

  /** Every row kept is a row of the input that is not full; one row is kept per non-full row. */
  lemma {:induction false} SurvivorsFacts(b: Board)
    ensures |Survivors(b)| + CountFull(b) == |b|
    ensures forall r :: 0 <= r < |Survivors(b)| ==> !Full(Survivors(b)[r]) && Survivors(b)[r] in b
  {
    if |b| > 0 {
      SurvivorsFacts(b[..|b| - 1]);
    }
  }

  /** An empty row added on top is counted as not full and kept in front. */
  lemma {:induction false} PrependEmpty(t: Board)
    ensures CountFull([EmptyRow()] + t) == CountFull(t)
    ensures Survivors([EmptyRow()] + t) == [EmptyRow()] + Survivors(t)
  {
    EmptyRowNotFull();
    var e := [EmptyRow()] + t;
    if |t| == 0 {
      assert e[..0] == [];
    } else {
      assert e[..|e| - 1] == [EmptyRow()] + t[..|t| - 1];
      PrependEmpty(t[..|t| - 1]);
    }
  }

  /** Splicing out a full row and putting an empty row on top moves that row from the
      non-full part to the count, so the compacted rows at and above it stay the same. */
  lemma FullRowStep(b: Board, row: int)
    requires WellFormed(b) && 0 <= row < Height && Full(b[row])
    ensures var b' := [EmptyRow()] + b[..row] + b[row + 1..];
      && WellFormed(b')
      && CountFull(b'[..row + 1]) + 1 == CountFull(b[..row + 1])
      && b'[row + 1..] == b[row + 1..]
      && Blank(CountFull(b'[..row + 1])) + Survivors(b'[..row + 1])
         == Blank(CountFull(b[..row + 1])) + Survivors(b[..row + 1])
  {
    var b' := [EmptyRow()] + b[..row] + b[row + 1..];
    assert b'[..row + 1] == [EmptyRow()] + b[..row];
    assert b'[row + 1..] == b[row + 1..];
    assert b[..row + 1][..row] == b[..row];
    PrependEmpty(b[..row]);
    var k := CountFull(b[..row]);
    assert Blank(k) + [EmptyRow()] == Blank(k + 1);
  }

  /** The scan of clearLines from board row `row` upwards, with `n` rows cleared so far.
      A full row is spliced out, an empty row is put on top, and the same row index is checked
      again. Its result: the rows at and above `row` are compacted (empties on top, non-full rows
      in order below them), the rows below `row` are untouched. */
  function ClearScan(b: Board, row: int, n: nat): (res: (Board, nat))
    requires WellFormed(b)
    requires -1 <= row < Height
    decreases row + 1, CountFull(b[..row + 1])
    ensures WellFormed(res.0)
    ensures res.0 == Blank(CountFull(b[..row + 1])) + Survivors(b[..row + 1]) + b[row + 1..]
    ensures res.1 == n + CountFull(b[..row + 1])
  {
    if row < 0 then
      assert b[..0] == [];
      (b, n)
    else if Full(b[row]) then
      var b' := [EmptyRow()] + b[..row] + b[row + 1..];
      FullRowStep(b, row);
      ClearScan(b', row, n + 1)
    else
      assert b[..row + 1][..row] == b[..row];
      assert b[row..] == [b[row]] + b[row + 1..];
      ClearScan(b, row - 1, n)
  }

  /** clearLines on the board: returns the new board and the number of rows removed. The board
      keeps its 20-by-10 shape, one empty row sits on top per removed row, the non-full rows
      follow in their original order, and no row is full afterwards. */
  function ClearLines(b: Board): (res: (Board, nat))
    requires WellFormed(b)
    ensures |res.0| == Height && WellFormed(res.0)
    ensures res.1 == CountFull(b) <= Height
    ensures res.0[..res.1] == Blank(res.1)
    ensures res.0[res.1..] == Survivors(b)
    ensures forall r :: 0 <= r < Height ==> !Full(res.0[r])
  {
    var res := ClearScan(b, Height - 1, 0);
    assert b[..Height] == b;
    assert b[Height..] == [];
    SurvivorsFacts(b);
    EmptyRowNotFull();
    assert forall r :: res.1 <= r < Height ==> res.0[r] == Survivors(b)[r - res.1];
    res
  }

  /** A board with no full row has nothing to clear. */
  lemma {:induction false} NoFullRow(b: Board)
    requires forall r :: 0 <= r < |b| ==> !Full(b[r])
    ensures CountFull(b) == 0 && Survivors(b) == b
  {
    if |b| > 0 {
      var init := b[..|b| - 1];
      assert forall r :: 0 <= r < |init| ==> init[r] == b[r];
      NoFullRow(init);
      assert b == init + [b[|b| - 1]];
    }
  }

  /** Clearing is idempotent: a second clear removes nothing and changes nothing. */
  lemma ClearLinesIdempotent(b: Board)
    requires WellFormed(b)
    ensures ClearLines(ClearLines(b).0) == (ClearLines(b).0, 0)
  {
    var c := ClearLines(b).0;
    NoFullRow(c);
    assert c[..0] == [];
  }
}

=== FILE: playfield.dfy ===
/** The 20-by-10 board of game.js: collision checking, locking a piece into the grid,
    and the landing row shared by the ghost preview and the hard drop. */
module Playfield {
  import opened Tetromino

  const Width: int := 10
  const Height: int := 20

  /** A board cell: 0 in the source, or the colour string of the piece locked there. */
  datatype Cell = Empty | Filled(color: Color)

  type Row = seq<Cell>

  /** Rows top to bottom; row 0 is the top of the visible board. */
  type Board = seq<Row>

  predicate WellFormed(b: Board) {
    |b| == Height && forall r :: 0 <= r < |b| ==> |b[r]| == Width
  }

  function EmptyRow(): (row: Row)
    ensures |row| == Width && forall c :: 0 <= c < |row| ==> row[c] == Empty
  {
    seq(Width, _ => Empty)
  }

  /** The board `resetGame` creates. */
  function EmptyBoard(): (b: Board)
    ensures WellFormed(b)
    ensures forall r, c :: 0 <= r < Height && 0 <= c < Width ==> b[r][c] == Empty
  {
    seq(Height, _ => EmptyRow())
  }

  /** A piece cell may occupy board position (r, c): inside the side walls, above the floor,
      and either above the top edge (r < 0) or on an empty cell. */
  ghost predicate CellFree(b: Board, r: int, c: int)
    requires WellFormed(b)
  {
    0 <= c < Width && r < Height && (r >= 0 ==> b[r][c] == Empty)
  }

  /** The collision rule: every filled cell (i, j) of the piece, with the piece's top-left
      corner at column x, row y, lands on a free position (y + i, x + j). */
  ghost predicate Fits(b: Board, p: Piece, x: int, y: int)
    requires WellFormed(b)
  {
    forall i, j :: 0 <= i < |p.shape| && 0 <= j < |p.shape[i]| && p.shape[i][j] ==> CellFree(b, y + i, x + j)
  }

  /** The part of the collision rule that placement needs: every filled cell is inside the
      side walls and above the floor. */
  ghost predicate InsideWalls(p: Piece, x: int, y: int) {
    forall i, j :: 0 <= i < |p.shape| && 0 <= j < |p.shape[i]| && p.shape[i][j] ==>
      0 <= x + j < Width && y + i < Height
  }

  /** The inner loop of isValidMove over one row of the shape, from column `col` on. */
  function RowValid(b: Board, cells: seq<bool>, x: int, boardY: int, col: nat): (ok: bool)
    requires WellFormed(b)
    requires col <= |cells|
    decreases |cells| - col
    ensures ok <==> forall j :: col <= j < |cells| && cells[j] ==> CellFree(b, boardY, x + j)
  {
    if col == |cells| then true
    else if cells[col] && (x + col < 0 || x + col >= Width || boardY >= Height) then false
    else if cells[col] && boardY >= 0 && b[boardY][x + col] != Empty then false
    else RowValid(b, cells, x, boardY, col + 1)
  }

  /** The outer loop of isValidMove, from shape row `row` on. */
  function ShapeValid(b: Board, sh: Shape, x: int, y: int, row: nat): (ok: bool)
    requires WellFormed(b)
    requires row <= |sh|
    decreases |sh| - row
    ensures ok <==> forall i, j :: row <= i < |sh| && 0 <= j < |sh[i]| && sh[i][j] ==> CellFree(b, y + i, x + j)
  {
    if row == |sh| then true
    else if !RowValid(b, sh[row], x, y + row, 0) then false
    else ShapeValid(b, sh, x, y, row + 1)
  }

  /** isValidMove: the scan accepts exactly the positions allowed by the collision rule. */
  function IsValidMove(b: Board, p: Piece, x: int, y: int): (ok: bool)
    requires WellFormed(b)
    ensures ok <==> Fits(b, p, x, y)
  {
    ShapeValid(b, p.shape, x, y, 0)
  }

  /** Board position (r, c) is under a filled cell of the piece placed at (x, y). */
  ghost predicate Covers(p: Piece, x: int, y: int, r: int, c: int) {
    0 <= r - y < |p.shape| && 0 <= c - x < |p.shape[r - y]| && p.shape[r - y][c - x]
  }

  /** The inner loop of placePiece: write the colour into each filled cell of one shape row,
      from column `col` on, skipping rows above the top edge. */
  function PlaceRow(b: Board, cells: seq<bool>, color: Color, x: int, boardY: int, col: nat): (r: Board)
    requires WellFormed(b)
    requires col <= |cells|
    requires forall j :: col <= j < |cells| && cells[j] ==> 0 <= x + j < Width && boardY < Height
    decreases |cells| - col
    ensures WellFormed(r)
    ensures forall R, C :: 0 <= R < Height && 0 <= C < Width ==>
              r[R][C] == (if R == boardY && col <= C - x < |cells| && cells[C - x] then Filled(color) else b[R][C])
  {
    if col == |cells| then b
    else
      var b' := if cells[col] && boardY >= 0 then b[boardY := b[boardY][x + col := Filled(color)]] else b;
      PlaceRow(b', cells, color, x, boardY, col + 1)
  }

  /** The outer loop of placePiece, from shape row `row` on. */
  function PlaceRows(b: Board, p: Piece, x: int, y: int, row: nat): (r: Board)
    requires WellFormed(b)
    requires row <= |p.shape|
    requires InsideWalls(p, x, y)
    decreases |p.shape| - row
    ensures WellFormed(r)
    ensures forall R, C :: 0 <= R < Height && 0 <= C < Width ==>
              r[R][C] == (if R - y >= row && Covers(p, x, y, R, C) then Filled(p.color) else b[R][C])
  {
    if row == |p.shape| then b
    else
      PlaceRows(PlaceRow(b, p.shape[row], p.color, x, y + row, 0), p, x, y, row + 1)
  }

  /** placePiece: lock a piece into the grid. Exactly the visible cells under the piece take
      its colour; every other cell keeps its content. */
  function PlacePiece(b: Board, p: Piece, x: int, y: int): (r: Board)
    requires WellFormed(b)
    requires InsideWalls(p, x, y)
    ensures WellFormed(r)
    ensures forall R, C :: 0 <= R < Height && 0 <= C < Width ==>
              r[R][C] == (if Covers(p, x, y, R, C) then Filled(p.color) else b[R][C])
  {
    PlaceRows(b, p, x, y, 0)
  }

  /** A position the collision rule accepts is inside the walls. */
  lemma FitsInsideWalls(b: Board, p: Piece, x: int, y: int)
    requires WellFormed(b)
    requires Fits(b, p, x, y)
    ensures InsideWalls(p, x, y)
  {
  }

  /** A piece with a filled cell cannot sit at or below the floor row. */
  lemma FitsAboveFloor(b: Board, p: Piece, x: int, y: int)
    requires WellFormed(b)
    requires HasBlock(p.shape)
    requires Fits(b, p, x, y)
    ensures y < Height
  {
    var i, j :| 0 <= i < |p.shape| && 0 <= j < |p.shape[i]| && p.shape[i][j];
    assert CellFree(b, y + i, x + j);
  }

  /** The loop of getGhostY (and of hardDrop): move down while the next row down is valid.
      The result is the first row g >= y at which one more step down is refused; every row
      passed on the way is valid. */
  function LandingRow(b: Board, p: Piece, x: int, y: int): (g: int)
    requires WellFormed(b)
    requires HasBlock(p.shape)
    decreases Height - y
    ensures g >= y
    ensures !Fits(b, p, x, g + 1)
    ensures forall k :: y < k <= g ==> Fits(b, p, x, k)
  {
    if IsValidMove(b, p, x, y + 1) then
      FitsAboveFloor(b, p, x, y + 1);
      LandingRow(b, p, x, y + 1)
    else y
  }
}

=== FILE: tetromino.dfy ===
/** The seven tetrominoes and the 90-degree rotation transform of game.js. */
module Tetromino {

  /** A shape is a matrix of cells, row by row; `true` is a filled cell (1 in the source). */
  type Shape = seq<seq<bool>>

  /** A CSS colour string such as "#00f0f0". */
  type Color = string

  /** A piece in play: its current shape and its colour. Rotation changes the shape only. */
  datatype Piece = Piece(shape: Shape, color: Color)

  /** The keys of the tetromino table. */
  datatype Kind = I | O | T | S | Z | J | L

  /** At least one row, at least one column, and every row as wide as the first. */
  predicate Rectangular(sh: Shape) {
    && |sh| > 0
    && |sh[0]| > 0
    && forall i :: 0 <= i < |sh| ==> |sh[i]| == |sh[0]|
  }

  /** Number of columns, read from the first row as the source does. */
  function Cols(sh: Shape): nat
    requires |sh| > 0
  {
    |sh[0]|
  }

  /** Some cell of the shape is filled. */
  predicate HasBlock(sh: Shape) {
    exists i, j :: 0 <= i < |sh| && 0 <= j < |sh[i]| && sh[i][j]
  }

  /** The shapes that ever come into play: rectangular and not blank. */
  predicate WellShaped(p: Piece) {
    Rectangular(p.shape) && HasBlock(p.shape)
  }

  /** A fresh copy of one entry of the tetromino table. */
  function Make(k: Kind): (p: Piece)
    ensures WellShaped(p)
    ensures |p.shape| <= 2 && Cols(p.shape) <= 4
  {
    var p := match k
      case I => Piece([[true, true, true, true]], "#00f0f0")
      case O => Piece([[true, true], [true, true]], "#f0f000")
      case T => Piece([[false, true, false], [true, true, true]], "#a000f0")
      case S => Piece([[false, true, true], [true, true, false]], "#00f000")
      case Z => Piece([[true, true, false], [false, true, true]], "#f00000")
      case J => Piece([[true, false, false], [true, true, true]], "#0000f0")
      case L => Piece([[false, false, true], [true, true, true]], "#f0a000");
    assert p.shape[|p.shape| - 1][1];
    p
  }

  /** Clockwise quarter turn: row i, column j of an r-by-c shape becomes row j, column r-1-i
      of a c-by-r shape; the colour is kept. */
  function Rotate(p: Piece): (r: Piece)
    requires Rectangular(p.shape)
    ensures Rectangular(r.shape)
    ensures |r.shape| == Cols(p.shape) && Cols(r.shape) == |p.shape|
    ensures forall i, j :: 0 <= i < |p.shape| && 0 <= j < Cols(p.shape) ==>
              r.shape[j][|p.shape| - 1 - i] == p.shape[i][j]
    ensures r.color == p.color
  {
    var rows := |p.shape|;
    var cols := |p.shape[0]|;
    Piece(seq(cols, j requires 0 <= j < cols => seq(rows, k requires 0 <= k < rows => p.shape[rows - 1 - k][j])), p.color)
  }

  /** Rotating a piece that has a filled cell gives a piece that has one. */
  lemma RotateWellShaped(p: Piece)
    requires WellShaped(p)
    ensures WellShaped(Rotate(p))
  {
    var i, j :| 0 <= i < |p.shape| && 0 <= j < |p.shape[i]| && p.shape[i][j];
    var r := Rotate(p);
    assert r.shape[j][|p.shape| - 1 - i];
  }

  /** `q` is `p` turned by half a turn: same size and colour, rows and columns both reversed. */
  ghost predicate HalfTurn(p: Piece, q: Piece)
    requires Rectangular(p.shape)
  {
    && Rectangular(q.shape)
    && |q.shape| == |p.shape|
    && Cols(q.shape) == Cols(p.shape)
    && q.color == p.color
    && forall i, j :: 0 <= i < |p.shape| && 0 <= j < Cols(p.shape) ==>
         q.shape[|p.shape| - 1 - i][Cols(p.shape) - 1 - j] == p.shape[i][j]
  }

  /** Two quarter turns make a half turn. */
  lemma RotateTwice(p: Piece)
    requires Rectangular(p.shape)
    ensures HalfTurn(p, Rotate(Rotate(p)))
  {
    var rows, cols := |p.shape|, Cols(p.shape);
    var r1 := Rotate(p);
    assert |r1.shape| == cols && Cols(r1.shape) == rows;
    var r2 := Rotate(r1);
    assert |r2.shape| == rows && Cols(r2.shape) == cols;
    forall i, j | 0 <= i < rows && 0 <= j < cols
      ensures r2.shape[rows - 1 - i][cols - 1 - j] == p.shape[i][j]
    {
      assert r1.shape[j][rows - 1 - i] == p.shape[i][j];
      assert r2.shape[rows - 1 - i][cols - 1 - j] == r1.shape[j][rows - 1 - i];
    }
  }

  /** Two half turns give back the original piece. */
  lemma HalfTurnTwice(p: Piece, h: Piece, q: Piece)
    requires Rectangular(p.shape)
    requires HalfTurn(p, h) && HalfTurn(h, q)
    ensures q == p
  {
    forall i | 0 <= i < |p.shape|
      ensures q.shape[i] == p.shape[i]
    {
      forall j | 0 <= j < |p.shape[i]|
        ensures q.shape[i][j] == p.shape[i][j]
      {
        var i', j' := |p.shape| - 1 - i, Cols(p.shape) - 1 - j;
        assert h.shape[i'][j'] == p.shape[i][j];
        assert q.shape[|h.shape| - 1 - i'][Cols(h.shape) - 1 - j'] == h.shape[i'][j'];
      }
    }
  }

  /** Four quarter turns give back the original piece. */
  lemma RotateFourTimes(p: Piece)
    requires Rectangular(p.shape)
    ensures Rotate(Rotate(Rotate(Rotate(p)))) == p
  {
    RotateTwice(p);
    var h := Rotate(Rotate(p));
    RotateTwice(h);
    HalfTurnTwice(p, h, Rotate(Rotate(h)));
  }
}

=== FILE: wrappers.dfy ===
/** The JavaScript "value or null" idiom, as a datatype. */
module Wrappers {

  datatype Option<+T> = None | Some(value: T)

  function Min(a: int, b: int): int {
    if a <= b then a else b
  }

  function Max(a: int, b: int): int {
    if a >= b then a else b
  }
}
